=== FILE: README.md ===
# StateSpaceGridLib measure engine, in Dafny

A model of the measure engine of StateSpaceGridLib, a Python library for
state space grids. A dyad's behaviour is a *trajectory*. Each trajectory is
a path of *events* through a grid of categorical (x, y) cells. It carries
`N + 1` fencepost timestamps for its `N` events. The model covers:

- **Construction** (`trajectory.py`). A `Trajectory` is built from raw
  ranges, states and times. Six checks run in the source's order, and the
  first one that fails is reported as an `Error`.
- **Per-trajectory sequences.**
  - `get_visits`: runs of equal consecutive states, collapsed.
  - `get_visit_times`: the fenceposts around those visits.
  - `__get_state_durations`: an insertion-ordered `defaultdict` of the time
    spent per cell.
- **Cross-trajectory validation** (`validate_trajectories`). It checks for
  no trajectories, then that each axis's label sets match, then the
  position-by-position order against the first trajectory.
- **The nine measures** and `get_measures`:
  - the means across trajectories of duration, events, visits, distinct
    states, mean event, visit and state durations, and dispersion
    `1 - (S·Σp² - 1)/(S - 1)`;
  - the total number of distinct states across all trajectories.

Modules, one per concern: `Errors` (errors.dfy), `SeqMath` (seqmath.dfy),
`Trajectories` (trajectory.dfy), `Visits` (visits.dfy), `StateDurations`
(durations.dfy), `Validation` (validation.dfy), `Dispersion`
(dispersion.dfy) and `Measure` (measure.dfy). `Fixtures` (fixtures.dfy)
restates the library's own test scenarios as lemmas about the model.

Modelling decisions:

- Timestamps are `real`. Exact rationals stand in for Python floats, so the
  tests' `math.isclose` checks become exact equalities. For example,
  dispersion is exactly 0.6525, 0.6075 and 0.63 for the test trajectories.
- Labels are generic (`X(==)`, `Y(==)`). A cell is `State(x, y)`. A tuple
  and a list with the same items are not told apart.
- Python's runtime failures become explicit errors:
  - `states[0]` on no events (in `get_visits`) and `statistics.mean` of
    nothing both become `NoEvents`;
  - the division by `S - 1` on a one-cell grid becomes
    `DegenerateStateSpace`;
  - each distinct `ValueError` message becomes its own constructor. The
    x- and y-axis checks of `validate_trajectories` raise the same message,
    so they share `StateSpaceMismatch`
    (StateSpaceGridLib/statespacegrid/measure.py:55 and :59) and
    `StateSpaceOrder` (StateSpaceGridLib/statespacegrid/measure.py:63 and
    :67).
- Five per-trajectory values can fail: the number of visits and the mean
  event, visit and state durations need events (`Measure.NeedsEvents`), and
  dispersion needs a grid of two or more cells. Within `get_measures` only
  visits and dispersion can be the first failure: visits are computed
  before the three durations and dispersion, and the durations cannot fail
  once visits have succeeded. So the model reports the same first failure
  Python would.
- Validation follows `validate_trajectories` in
  StateSpaceGridLib/statespacegrid/measure.py:47-67.
  statespacegrid/measure.py:31 imports it from
  `statespacegrid.trajectory`, which does not define it.
- The total state range follows statespacegrid/measure.py:92-93, which
  reads `traj.states`.
- Without events, on a grid of two or more cells, dispersion is not an
  error. The sum of squared shares is empty, so the formula gives
  `S / (S - 1)`, which is above 1. The model keeps this
  (`Measure.DispersionWithoutEvents`). On a one-cell grid it divides by
  zero (`DegenerateStateSpace`), and with `S == 0` (an empty range) it
  gives 0. `get_measures` never reaches any of these, because visits fail
  first.

## Model

| member | source | states |
|---|---|---|
| Trajectories.Construct | statespacegrid/trajectory.py:39-60 | Construction succeeds exactly when states are sequences, pairs, one fewer than times, times numeric, states inside both ranges and times strictly increasing; otherwise the error of the first failing check in source order; ranges are kept as given |
| Trajectories.ConstructValid | statespacegrid/trajectory.py:47-60 | Every valid trajectory passes all six checks: construction from its own parts gives it back unchanged |
| Trajectories.Default | statespacegrid/trajectory.py:39-45 | `Trajectory()` succeeds with ranges [1,2,3,4] on both axes, no states, times [0.0], and is valid |
| Trajectories.Duration | statespacegrid/measure.py:59-60 | `times[-1] - times[0]` is positive exactly when the trajectory has events and 0 when it has none |
| Visits.ChangesFrom | statespacegrid/trajectory.py:64 | The comprehension over `zip(states, states[1:])` keeps at most the remaining states, keeps all of them exactly when no neighbours repeat, never yields two equal neighbours and ends with the last state |
| Visits.ChangesFromElements | statespacegrid/trajectory.py:64 | Collapsing runs keeps exactly the set of states that occur |
| Visits.ChangesFromAll | statespacegrid/trajectory.py:64 | Without neighbouring repeats the comprehension keeps every state |
| Visits.ChangesFromCount | statespacegrid/trajectory.py:64 | The comprehension keeps one state for each position where the state differs from the one before |
| Visits.ChangesFromIndex | statespacegrid/trajectory.py:64 | Counting the changes up to event `i` gives the visit holding event `i`, and that visit's state is the event's state |
| Visits.Visits | statespacegrid/trajectory.py:62-64 | `get_visits` needs an event; it starts with the first state and ends with the last, has no equal neighbours, has between 1 and `len(states)` entries with equality exactly when no neighbours repeat, and contains the same set of states |
| Visits.VisitsAreRuns | statespacegrid/trajectory.py:62-64 | Each visit is one maximal run of equal states: there is one visit more than there are positions where the state changes, and each event's state is the state of the visit reached by counting the changes up to it |
| Visits.VisitsIdempotent | statespacegrid/trajectory.py:62-64 | Collapsing runs of the visits changes nothing |
| Visits.BoundariesFrom | statespacegrid/trajectory.py:68 | The fenceposts that close a visit number one more than the later state changes, and the last is `times[len(states)]` |
| Visits.BoundariesAreFenceposts | statespacegrid/trajectory.py:68 | Every visit boundary is one of the trajectory's later fenceposts |
| Visits.BoundariesIncrease | statespacegrid/trajectory.py:68 | Visit boundaries keep the strict order of the fenceposts |
| Visits.BoundaryMembership | statespacegrid/trajectory.py:68 | With strictly increasing times, fencepost `i` closes a visit found from `j` on exactly when `i >= j` and `i` is the last fencepost or the state changes at `i` |
| Visits.VisitTimesAtChanges | statespacegrid/trajectory.py:66-68 | With strictly increasing times, an inner fencepost `times[i]` is a visit time exactly when `states[i-1] != states[i]` |
| Visits.VisitTimes | statespacegrid/trajectory.py:66-68 | `get_visit_times` starts at `times[0]`, ends at `times[len(states)]`, has one more entry than there are visits, takes only fenceposts, and is strictly increasing when the times are |
| Visits.VisitDurationsSum | statespacegrid/trajectory.py:66-68 | Visit durations add up to `times[-1] - times[0]`, the same total as event durations |
| StateDurations.AddKeys | statespacegrid/measure.py:132 | After `state_durations[s] += d` the keys are the old keys and `s` |
| StateDurations.AddExisting | statespacegrid/measure.py:132 | Adding under an existing key keeps the keys and their insertion order |
| StateDurations.AddAppends | statespacegrid/measure.py:132 | A new key is inserted after all existing ones with value `d` |
| StateDurations.AddElements | statespacegrid/measure.py:132 | The key set grows by exactly `s` |
| StateDurations.AddDistinct | statespacegrid/measure.py:132 | The dictionary never holds a key twice |
| StateDurations.AddSum | statespacegrid/measure.py:132 | The values' total grows by exactly `d` |
| StateDurations.AddPositive | statespacegrid/measure.py:132 | Adding a positive duration keeps every value positive |
| StateDurations.AddLookup | statespacegrid/measure.py:130-132 | The `defaultdict` read of `s` grows by `d` and every other key's read is unchanged |
| StateDurations.LookupEntry | statespacegrid/measure.py:130-132 | Reading an entry's key gives that entry's value |
| StateDurations.NotKeyLookup | statespacegrid/measure.py:130 | A missing key reads the `float()` default 0.0 |
| StateDurations.AccumulateDistinct | statespacegrid/measure.py:131-132 | After any number of loop iterations the keys are duplicate-free |
| StateDurations.AccumulateKeys | statespacegrid/measure.py:131-132 | After `n` iterations the keys are the distinct states of the first `n` events |
| StateDurations.AccumulateSum | statespacegrid/measure.py:131-132 | After `n` iterations the values add up to `times[n] - times[0]`, and all are positive when times increase |
| StateDurations.AccumulateLookup | statespacegrid/measure.py:131-132 | After `n` iterations each state reads the time it occupied during the first `n` events, compared against an independent event-by-event sum |
| StateDurations.StateDurations | statespacegrid/measure.py:129-133 | One key per distinct state, no duplicates, values summing to `times[-1] - times[0]`, each value the time spent in its state, all positive for increasing times |
| StateDurations.StateDurationsLookup | statespacegrid/measure.py:129-133 | Read as a `defaultdict`, every state, visited or not, reads exactly its occupancy |
| StateDurations.EntryForEachState | statespacegrid/measure.py:129-133 | A state has an entry exactly when the trajectory occupies it |
| StateDurations.OccupiedIffVisited | statespacegrid/measure.py:129-133 | With strictly increasing times, a state's occupied time is positive exactly when the trajectory visits it |
| StateDurations.AccumulateOrder | statespacegrid/measure.py:130-132 | After `n` iterations the keys are listed in the order in which the first `n` events first reach them (`states.index`), each first reached before event `n` |
| StateDurations.StateDurationsOrder | statespacegrid/measure.py:129-133 | The dictionary lists its keys in order of first occurrence in `states`, as Python's insertion-ordered dict does |
| StateDurations.EntriesPermutation | statespacegrid/measure.py:129-133 | Two dictionaries with the same keys that agree on each key's value hold the same values (as a multiset), whatever order the keys were inserted in |
| SeqMath.Telescope | statespacegrid/measure.py:104 | Differences over `zip(times, times[1:])` add up to `times[-1] - times[0]` |
| SeqMath.MeanOfDiffs | statespacegrid/measure.py:103-104 | The mean of the fencepost gaps is the span divided by the number of gaps |
| Dispersion.SumOfShares | statespacegrid/measure.py:151 | The shares `d / D` add up to the sum of durations over `D` |
| SeqMath.SumPermutation | statespacegrid/measure.py:150-152 | Python's `sum` gives the same result for any ordering of the same values |
| Dispersion.SquaresPermutation | statespacegrid/measure.py:150-152 | The sum of squares gives the same result for any ordering of the same values |
| Dispersion.SharesPermutation | statespacegrid/measure.py:151 | Reordering the durations reorders their shares `d / D` the same way |
| Dispersion.SquaredSharesPermutation | statespacegrid/measure.py:150-152 | `sum(map(lambda d: pow(d / D, 2), values))` does not depend on the order of the values |
| Dispersion.ShareBounds | statespacegrid/measure.py:150-151 | For `k` non-negative durations summing to `D > 0`, `Σp²` lies between `1/k` and 1 |
| Dispersion.EvenShares | statespacegrid/measure.py:150-151 | `k` equal non-zero durations give `k·Σp² == 1` |
| Dispersion.EvenFormula | statespacegrid/measure.py:146-153 | Equal non-zero durations over all `S` cells give dispersion 1 |
| Dispersion.FormulaExtremes | statespacegrid/measure.py:148-153 | The formula is 0 when `Σp² == 1` and 1 when `Σp² == 1/S` |
| Dispersion.FormulaBounds | statespacegrid/measure.py:148-153 | With `1/k <= Σp² <= 1` and `1 <= k <= S`, the formula lies in [0, 1] |
| Dispersion.GridCardinality | statespacegrid/measure.py:147 | The grid spanned by the two ranges has at most `len(x_range) * len(y_range)` cells |
| Dispersion.VisitedCellsBounded | statespacegrid/measure.py:147 | A valid trajectory visits at most `S` distinct cells |
| Measure.AverageEventDuration | statespacegrid/measure.py:100-107 | The inner mean of event durations equals duration / number of events |
| Measure.AverageVisitDuration | statespacegrid/measure.py:114-121 | The inner mean of visit durations equals duration / number of visits |
| Measure.AverageStateDuration | statespacegrid/measure.py:135-138 | The inner mean of state durations equals duration / number of distinct states |
| Measure.TrajectoryDispersion | statespacegrid/measure.py:146-153 | `__get_dispersion` fails exactly on a one-cell grid, with the division-by-zero error |
| Measure.DispersionBounds | statespacegrid/measure.py:146-153 | With events and `S >= 2` dispersion lies in [0, 1] |
| Measure.DispersionConcentrated | statespacegrid/measure.py:146-153 | All time in one cell gives dispersion 0 |
| Measure.DispersionEven | statespacegrid/measure.py:146-153 | Equal time in each of the `S` cells gives dispersion 1 |
| Measure.EqualEntries | statespacegrid/measure.py:129-133 | When every occupied state gets the same time `c`, every state-duration value is `c` and `c` is positive |
| Measure.DispersionWithoutEvents | statespacegrid/measure.py:146-153 | Without events the empty sum makes dispersion `S / (S - 1)`, which is above 1 |
| Measure.DispersionOrderIndependent | statespacegrid/measure.py:146-153 | Two valid trajectories on grids of the same size that spend the same time in every state have the same dispersion (or fail alike), whatever the order of their events |
| Measure.Quantify | statespacegrid/measure.py:59-156 | A per-trajectory value fails exactly when Python raises: the four event-based values need an event, dispersion needs `S != 1`; the error names the cause |
| Measure.QuantifyClosedForm | statespacegrid/measure.py:59-153 | Each per-trajectory value in closed form: span, counts of events, visits and distinct states, the span divided by each count, and the dispersion |
| Measure.Collect | statespacegrid/measure.py:59-60 | `map(value, trajs)` succeeds exactly when no trajectory raises, in which case it holds each trajectory's own value in order |
| Measure.MeanAcross | statespacegrid/measure.py:59-60 | The mean across trajectories fails exactly when some trajectory has no value, with that value's error |
| Measure.MeanAcrossBounds | statespacegrid/measure.py:59-60 | The mean lies between the smallest and largest per-trajectory value, and is that value for one trajectory |
| Measure.MeanIsUnweighted | statespacegrid/measure.py:100-107 | The mean across `n` trajectories is the sum of their own values divided by `n`, whatever their numbers of events |
| Measure.SingleMean | statespacegrid/measure.py:59-60 | The mean across one trajectory is that trajectory's own value |
| Measure.PairMean | statespacegrid/measure.py:59-60 | The mean across two trajectories is the midpoint of their values |
| Measure.PairMeans | statespacegrid/measure.py:59-156 | For two trajectories every mean is the field-wise average of their per-trajectory values |
| Measure.TotalStateRange | statespacegrid/measure.py:92-93 | The total state range is at least every trajectory's distinct-state count and at most their sum |
| Measure.TotalStateRangeBounds | statespacegrid/measure.py:92-93 | Every trajectory's states are among all states, and their count lies between the largest single count and the sum |
| Measure.PairStates | statespacegrid/measure.py:92-93 | The states of two trajectories are the union of each one's states |
| Measure.GetMean | statespacegrid/measure.py:62-65 | A public getter reports the validation error when validation fails, and otherwise the mean across the trajectories |
| Measure.GetTotalStateRange | statespacegrid/measure.py:95-98 | `get_total_state_range` reports the validation error, or otherwise the total state range |
| Measure.GetMeasures | statespacegrid/measure.py:146-176 | `get_measures` validates once and reports its error; after passing it succeeds exactly when every trajectory has events and a grid of more than one cell, reports `NoEvents` when one has no events, reports `DegenerateStateSpace` (the division by `S - 1`) when all have events but one grid has a single cell, and each field equals the matching public getter |
| Measure.FieldsAreMeans | statespacegrid/measure.py:166-175 | A report filled from the eight means holds the mean of each quantity in the matching field |
| Measure.MeasuresSucceed | statespacegrid/measure.py:163-176 | Once validation passes and visits and dispersion succeed, the whole report succeeds |
| Measure.ReportFromMeans | statespacegrid/measure.py:163-176 | A report whose fields equal the eight means and the total state range is exactly what `get_measures` returns |
| Measure.ProfileValues | statespacegrid/measure.py:59-153 | A trajectory's report of its own values gives, field by field, its per-trajectory value of each quantity |
| Measure.SingleTrajectoryMeasures | statespacegrid/measure.py:163-176 | `get_measures(t)` for one trajectory with events is its own closed-form values: duration, counts, duration over each count, distinct-state count as the total, and its dispersion |
| Measure.PairMeasures | statespacegrid/measure.py:163-176 | `get_measures(a, b)` that passes validation averages the two trajectories' own values field by field, and its total counts the union of their states |
| Measure.SharedSpaceMeasures | statespacegrid/measure.py:163-176 | Two trajectories on one state space always pass validation, and their report is the field-wise average |
| Validation.Validate | StateSpaceGridLib/statespacegrid/measure.py:47-67 | Validation passes exactly when there is a trajectory and both axes' sets and orders match; otherwise it reports no trajectories, then a set mismatch, then an order mismatch, in that precedence |
| Validation.UnionOfEqual | StateSpaceGridLib/statespacegrid/measure.py:53-59 | When every range has the same label set, so does the union of their labels |
| Validation.SetsMatchIffSameAsFirst | StateSpaceGridLib/statespacegrid/measure.py:53-59 | Comparing every set with the union is the same as comparing it with the first range's set |
| Validation.SinglePasses | StateSpaceGridLib/statespacegrid/measure.py:47-67 | A single trajectory with hashable labels always passes validation |
| Validation.SameSpacePasses | StateSpaceGridLib/statespacegrid/measure.py:47-67 | Trajectories that share one state space with hashable labels always pass validation |
| Validation.AgreeingDistinctRangesEqual | StateSpaceGridLib/statespacegrid/measure.py:61-67 | Duplicate-free ranges with equal sets that agree position by position are identical |
| Validation.PassMeansSameSpace | StateSpaceGridLib/statespacegrid/measure.py:61-67 | With duplicate-free ranges, passing validation means every trajectory has the first one's state space, so `S` is the same for all |
| Validation.OrderCheckStopsAtShorter | StateSpaceGridLib/statespacegrid/measure.py:61-63 | `zip` stops at the shorter range, so ranges [1, 2] and [1, 2, 1] pass together |
| Fixtures.ConstructionRejections | StateSpaceGridLib/statespacegrid/test/test_trajectory.py:27-51 | The constructor rejects a missing or extra timestamp, a non-numeric time, a bare value, a one-item list and a state outside 1..4, each with its own error |
| Fixtures.StateSpaceDefinition | StateSpaceGridLib/statespacegrid/test/test_trajectory.py:13-16 | Ranges given without events are stored as given |
| Fixtures.ToursValid | StateSpaceGridLib/statespacegrid/test/test_trajectory.py:18-24 | The nine-event tour of the normal-use test and its two variants are valid |
| Fixtures.FirstValid | StateSpaceGridLib/statespacegrid/test/test_measures.py:52-57 | The first test trajectory is valid on a 9-cell grid |
| Fixtures.FirstStateDurations | StateSpaceGridLib/statespacegrid/test/test_measures.py:52-57 | Its time per cell is 0.1, 0.4 and 0.5 in order of first visit |
| Fixtures.FirstShares | StateSpaceGridLib/statespacegrid/test/test_measures.py:68 | Those shares square to 0.42, and the formula on nine cells gives 0.6525 |
| Fixtures.FirstDispersion | StateSpaceGridLib/statespacegrid/test/test_measures.py:68 | The first trajectory's dispersion is 0.6525 |
| Fixtures.FirstFacts | StateSpaceGridLib/statespacegrid/test/test_measures.py:59-68 | Duration 1, 3 events, 3 visits, 3 distinct states, dispersion 0.6525 |
| Fixtures.FirstProfile | StateSpaceGridLib/statespacegrid/test/test_measures.py:59-68 | The first trajectory's own values are the expected single-trajectory report |
| Fixtures.FirstMeasures | StateSpaceGridLib/statespacegrid/test/test_measures.py:51-68 | `get_measures(traj1)` is 1, 3, 3, 3, 3, 1/3, 1/3, 1/3, 0.6525 |
| Fixtures.SecondValid | StateSpaceGridLib/statespacegrid/test/test_measures.py:70-75 | The second test trajectory is valid on a 9-cell grid |
| Fixtures.SecondVisits | StateSpaceGridLib/statespacegrid/test/test_measures.py:80 | Its two middle events collapse into one visit and the return to the first cell does not, giving 4 visits |
| Fixtures.SecondFirstThree | StateSpaceGridLib/statespacegrid/test/test_measures.py:70-75 | After three events the dictionary holds 0.9 and 0.6 |
| Fixtures.SecondStateDurations | StateSpaceGridLib/statespacegrid/test/test_measures.py:70-75 | Its time per cell is 1.2, 0.6 and 0.2 in order of first visit |
| Fixtures.SecondShares | StateSpaceGridLib/statespacegrid/test/test_measures.py:86 | Those shares square to 0.46, and the formula on nine cells gives 0.6075 |
| Fixtures.SecondDispersion | StateSpaceGridLib/statespacegrid/test/test_measures.py:86 | The second trajectory's dispersion is 0.6075 |
| Fixtures.SecondStateCount | StateSpaceGridLib/statespacegrid/test/test_measures.py:77 | The second trajectory visits 3 distinct cells |
| Fixtures.SecondFacts | StateSpaceGridLib/statespacegrid/test/test_measures.py:77-86 | Duration 2, 5 events, 4 visits, 3 distinct states, dispersion 0.6075 |
| Fixtures.SecondProfile | StateSpaceGridLib/statespacegrid/test/test_measures.py:77-86 | The second trajectory's own values are the expected single-trajectory report |
| Fixtures.SecondMeasures | StateSpaceGridLib/statespacegrid/test/test_measures.py:70-86 | `get_measures(traj2)` is 2, 5, 4, 3, 3, 0.4, 0.5, 2/3, 0.6075 |
| Fixtures.CombinedStateCount | StateSpaceGridLib/statespacegrid/test/test_measures.py:108 | The two trajectories together visit 5 distinct cells |
| Fixtures.BothAverage | StateSpaceGridLib/statespacegrid/test/test_measures.py:103-112 | Averaging the two single reports gives 1.5, 4, 3.5, 3, 11/30, 5/12, 0.5, 0.63 |
| Fixtures.BothPairReport | StateSpaceGridLib/statespacegrid/test/test_measures.py:88-112 | The two trajectories share a state space and their averaged report is the expected one |
| Fixtures.BothMeasures | StateSpaceGridLib/statespacegrid/test/test_measures.py:88-112 | `get_measures(traj1, traj2)` is the unweighted average: mean event duration 11/30 rather than the pooled 3/8, total state range 5 |
| Fixtures.EmptyInputRejected | StateSpaceGridLib/statespacegrid/test/test_measures.py:9-12 | `get_measures()` fails with the no-trajectory error |
| Fixtures.MismatchedSpacesRejected | StateSpaceGridLib/statespacegrid/test/test_measures.py:14-30 | Swapped axis label sets fail with the set-mismatch error |
| Fixtures.ReorderedSetsMatch | StateSpaceGridLib/statespacegrid/test/test_measures.py:32-49 | A reordered y range still has the same label sets |
| Fixtures.MisorderedSpacesRejected | StateSpaceGridLib/statespacegrid/test/test_measures.py:32-49 | The same sets in another order fail with the order error |

## Left out

- Python's runtime type tests (`isinstance`, `len(state) == 2`) are represented by the raw-input datatypes `RawState` and `RawTime`. An int and a float are not told apart, and neither are a tuple and a list. Two consequences of the latter are not modelled:
  - List-valued states pass construction (statespacegrid/trajectory.py:50) but are unhashable. Python then raises `TypeError` in `set(traj.states)` (statespacegrid/measure.py:85), in the state-set comprehension (statespacegrid/measure.py:93) and at the dictionary key (statespacegrid/measure.py:132), where the model returns `Ok`.
  - A tuple and a list with the same items compare unequal in Python, so in `get_visits` a tuple next to an equal list starts a new visit. The model counts one visit.
- Labels are assumed hashable: the model asks only for equality (`X(==)`, `Y(==)`), as construction does (statespacegrid/trajectory.py:57 uses `in`). An unhashable label, such as a list in `x_range`, passes construction, but Python then raises `TypeError`:
  - in validation, which builds `set(chain(...))` and `set(x_range)` (StateSpaceGridLib/statespacegrid/measure.py:53-54 and 57-58) and `len(set(comp))` (StateSpaceGridLib/statespacegrid/measure.py:62 and 66);
  - for a state holding such a label, in `set(traj.states)` (statespacegrid/measure.py:85), in the state-set comprehension (statespacegrid/measure.py:93) and at the dictionary key (statespacegrid/measure.py:132).

  There, `Validation.Validate` passes and the measures return `Ok`. `Validation.SinglePasses` and `Validation.SameSpacePasses` hold for hashable labels only.
- Floating-point rounding: times and measures are exact reals, and `math.isclose` is read as equality.
- The aliasing of the mutable default arguments of `Trajectory.__init__` (a shared `[]` and `[0.0]`) is not modelled, because values are immutable here.
- `_get_total_cell_range` at StateSpaceGridLib/statespacegrid/measure.py:97-98 iterates the trajectory object itself, which has no `__iter__` and so cannot succeed. The `traj.states` version at statespacegrid/measure.py:92-93 is modelled instead.
- The other measure functions of StateSpaceGridLib/statespacegrid/measure.py:69-173 repeat those of statespacegrid/measure.py under the names `mean_cell_range` and `total_cell_range`. They are modelled once.
- The error messages' text is not modelled. Each distinct message is one `Error` constructor, so a shared constructor does not say which axis failed validation. `NoEvents` likewise does not say whether Python would raise `IndexError` or `StatisticsError`.
- The plotting and layout code (state_space_grid/grid.py and statespacegrid/grid.py), the example drivers that read CSV files, and packaging are not part of this model.
- unit_tests/test_calculate_dispersion.py targets an older `calculate_dispersion` API that is not part of this model. Its edge cases (0, 1 and division by zero) are stated instead by `Measure.DispersionConcentrated`, `Measure.DispersionEven` and `Measure.TrajectoryDispersion`.

=== FILE: dispersion.dfy ===
/**
 * The arithmetic behind the dispersion measure (`__get_dispersion` in
 * statespacegrid/measure.py): with `S` cells in the grid and occupancy shares
 * `p = d / D` of the visited cells, dispersion is `1 - (S * sum(p^2) - 1) / (S - 1)`.
 */
module Dispersion {
  import opened SeqMath
  import opened Trajectories

  /** The occupancy shares `d / total`. */
  function Shares(ds: seq<real>, total: real): (ps: seq<real>)
    requires total != 0.0 || ds == []
    ensures |ps| == |ds|
    ensures forall i :: 0 <= i < |ds| ==> ps[i] == ds[i] / total
  {
    if ds == [] then [] else [ds[0] / total] + Shares(ds[1..], total)
  }

  function SumOfSquares(ps: seq<real>): real {
    if ps == [] then 0.0 else ps[0] * ps[0] + SumOfSquares(ps[1..])
  }

  /** `sum(map(lambda d: pow(d / total, 2), ds))`. */
  function SumOfSquaredShares(ds: seq<real>, total: real): real
    requires total != 0.0 || ds == []
  {
    SumOfSquares(Shares(ds, total))
  }

  /** The sum of squares is the square at `k` plus the sum of squares of the others. */
  lemma {:induction false} SquaresRemove(ps: seq<real>, k: int)
    requires 0 <= k < |ps|
    ensures SumOfSquares(ps) == ps[k] * ps[k] + SumOfSquares(ps[..k] + ps[k + 1..])
  {
    if k == 0 {
      assert ps[..0] + ps[1..] == ps[1..];
    } else {
      SquaresRemove(ps[1..], k - 1);
      assert ps[..k] + ps[k + 1..] == [ps[0]] + (ps[1..][..k - 1] + ps[1..][k..]);
    }
  }

  /** The sum of squares does not depend on the order of its terms. */
  lemma {:induction false} SquaresPermutation(a: seq<real>, b: seq<real>)
    requires multiset(a) == multiset(b)
    ensures SumOfSquares(a) == SumOfSquares(b)
  {
    if |a| == 0 {
      assert |b| == |multiset(b)| == 0;
    } else {
      var k := MatchFirst(a, b);
      var rest := b[..k] + b[k + 1..];
      RemoveMatching(a, b, k);
      SquaresPermutation(a[1..], rest);
      SquaresRemove(b, k);
    }
  }

  /** Reordering the durations reorders their shares the same way. */
  lemma {:induction false} SharesPermutation(a: seq<real>, b: seq<real>, total: real)
    requires total != 0.0
    requires multiset(a) == multiset(b)
    ensures multiset(Shares(a, total)) == multiset(Shares(b, total))
  {
    if |a| == 0 {
      assert |b| == |multiset(b)| == 0;
    } else {
      var k := MatchFirst(a, b);
      var rest := b[..k] + b[k + 1..];
      RemoveMatching(a, b, k);
      SharesPermutation(a[1..], rest, total);
      var pb := Shares(b, total);
      SharesRemove(b, k, total);
      RestoreMatching(pb[k], Shares(a[1..], total), pb, k);
      assert Shares(a, total) == [pb[k]] + Shares(a[1..], total);
    }
  }

  /** The shares of the durations without the one at `k` are the shares without the one at `k`. */
  lemma SharesRemove(ds: seq<real>, k: int, total: real)
    requires total != 0.0 && 0 <= k < |ds|
    ensures Shares(ds[..k] + ds[k + 1..], total) == Shares(ds, total)[..k] + Shares(ds, total)[k + 1..]
  {
    var rest, ps := ds[..k] + ds[k + 1..], Shares(ds, total);
    forall i | 0 <= i < |rest| ensures Shares(rest, total)[i] == (ps[..k] + ps[k + 1..])[i] {
      if i < k {
        assert rest[i] == ds[i];
      } else {
        assert rest[i] == ds[i + 1];
      }
    }
  }

  /**
   * The sum of squared shares does not depend on the order in which the
   * durations come, so neither does dispersion.
   */
  lemma SquaredSharesPermutation(a: seq<real>, b: seq<real>, total: real)
    requires total != 0.0 || a == []
    requires multiset(a) == multiset(b)
    ensures SumOfSquaredShares(a, total) == SumOfSquaredShares(b, total)
  {
    if total != 0.0 {
      SharesPermutation(a, b, total);
      SquaresPermutation(Shares(a, total), Shares(b, total));
    } else {
      assert |b| == |multiset(b)| == 0;
    }
  }

  /** Shares of a total add up to the sum divided by that total. */
  lemma {:induction false} SumOfShares(ds: seq<real>, total: real)
    requires total != 0.0
    ensures Sum(Shares(ds, total)) == Sum(ds) / total
  {
    if ds != [] {
      SumOfShares(ds[1..], total);
      assert ds[0] / total + Sum(ds[1..]) / total == (ds[0] + Sum(ds[1..])) / total;
    }
  }

  predicate NonNegative(ds: seq<real>) {
    forall i :: 0 <= i < |ds| ==> ds[i] >= 0.0
  }

  /** The closing formula; Python divides by zero when `S == 1`. */
  function Formula(cells: int, squaredShares: real): real
    requires cells != 1
  {
    1.0 - (cells as real * squaredShares - 1.0) / (cells as real - 1.0)
  }

  /** For non-negative values the sum of squares is at most the square of the sum. */
  lemma {:induction false} SquaresAtMostSquareOfSum(ds: seq<real>)
    requires NonNegative(ds)
    ensures SumOfSquares(ds) <= Sum(ds) * Sum(ds)
  {
    if ds != [] {
      var x, rest := ds[0], ds[1..];
      assert NonNegative(rest) by {
        forall i | 0 <= i < |rest| ensures rest[i] >= 0.0 {
          assert rest[i] == ds[i + 1];
        }
      }
      SquaresAtMostSquareOfSum(rest);
      SumNonNegative(rest);
      var p := Sum(rest);
      assert x * p >= 0.0;
      assert (x + p) * (x + p) == x * x + 2.0 * x * p + p * p;
    }
  }

  lemma {:induction false} SumNonNegative(ds: seq<real>)
    requires NonNegative(ds)
    ensures Sum(ds) >= 0.0
  {
    if ds != [] {
      assert NonNegative(ds[1..]) by {
        forall i | 0 <= i < |ds[1..]| ensures ds[1..][i] >= 0.0 {
          assert ds[1..][i] == ds[i + 1];
        }
      }
      SumNonNegative(ds[1..]);
    }
  }

  /** Cauchy-Schwarz for sums: the square of a sum of `k` values is at most `k` times their sum of squares. */
  lemma {:induction false} SquareOfSumAtMostScaledSquares(ds: seq<real>)
    ensures Sum(ds) * Sum(ds) <= |ds| as real * SumOfSquares(ds)
  {
    if ds != [] {
      var rest := ds[1..];
      SquareOfSumAtMostScaledSquares(rest);
      if rest == [] {
        assert Sum(ds) == ds[0] && SumOfSquares(ds) == ds[0] * ds[0];
      } else {
        CauchyStep(ds[0], Sum(rest), SumOfSquares(rest), |rest| as real);
      }
    }
  }

  /** One induction step of Cauchy-Schwarz, as plain arithmetic. */
  lemma CauchyStep(x: real, p: real, q: real, k: real)
    requires k > 0.0
    requires p * p <= k * q
    ensures (x + p) * (x + p) <= (k + 1.0) * (x * x + q)
  {
    var y := k * x * x + q - 2.0 * x * p;
    assert k * y == (k * x - p) * (k * x - p) + (k * q - p * p);
    SquareNonNegative(k * x - p);
    PositiveFactor(k, y);
    assert (k + 1.0) * (x * x + q) - (x + p) * (x + p) == y + (k * q - p * p);
  }

  lemma SquareNonNegative(a: real)
    ensures a * a >= 0.0
  {
  }

  lemma PositiveFactor(k: real, y: real)
    requires k > 0.0 && k * y >= 0.0
    ensures y >= 0.0
  {
  }

  /** `k` equal values `c` add up to `k * c`. */
  lemma {:induction false} EqualSum(ds: seq<real>, c: real)
    requires forall i :: 0 <= i < |ds| ==> ds[i] == c
    ensures Sum(ds) == |ds| as real * c
  {
    if ds != [] {
      EqualSum(ds[1..], c);
    }
  }

  /** `k` equal values `c` have the sum of squares `k * c * c`. */
  lemma {:induction false} EqualSquares(ps: seq<real>, c: real)
    requires forall i :: 0 <= i < |ps| ==> ps[i] == c
    ensures SumOfSquares(ps) == |ps| as real * (c * c)
  {
    if ps != [] {
      EqualSquares(ps[1..], c);
    }
  }

  lemma ShareBounds(ds: seq<real>, total: real)
    requires |ds| > 0 && NonNegative(ds)
    requires total > 0.0 && Sum(ds) == total
    ensures 1.0 / |ds| as real <= SumOfSquaredShares(ds, total) <= 1.0
  {
    var ps := Shares(ds, total);
    assert NonNegative(ps) by {
      forall i | 0 <= i < |ps| ensures ps[i] >= 0.0 {
        QuotientNonNegative(ds[i], total);
      }
    }
    var u, q := Sum(ps), SumOfSquares(ps);
    assert u == 1.0 by {
      SumOfShares(ds, total);
      DivideBySelf(total);
    }
    SquaresAtMostSquareOfSum(ps);
    SquareOfSumAtMostScaledSquares(ps);
    MomentBounds(u, q, |ds| as real);
  }

  /** From `q <= u * u <= k * q` with `u == 1`: `1 / k <= q <= 1`. */
  lemma MomentBounds(u: real, q: real, k: real)
    requires k > 0.0 && u == 1.0
    requires q <= u * u && u * u <= k * q
    ensures 1.0 / k <= q <= 1.0
  {
  }

  lemma QuotientNonNegative(a: real, b: real)
    requires a >= 0.0 && b > 0.0
    ensures a / b >= 0.0
  {
  }

  lemma DivideBySelf(x: real)
    requires x != 0.0
    ensures x / x == 1.0
  {
  }

  /**
   * `k` equal, non-zero durations have squared shares summing to `1 / k`,
   * stated without division: `k * sum(p^2) == 1`.
   */
  lemma EvenShares(ds: seq<real>, c: real, total: real, n: real)
    requires |ds| > 0 && c != 0.0 && total == Sum(ds) && n == |ds| as real
    requires forall i :: 0 <= i < |ds| ==> ds[i] == c
    ensures total != 0.0
    ensures n * SumOfSquaredShares(ds, total) == 1.0
  {
    EqualTotal(ds, c, total, n);
    EvenSquaredShares(ds, c, total, n);
  }

  /** Each of the `n` equal shares is `1 / n`, so `n` times their squares adds up to 1. */
  lemma EvenSquaredShares(ds: seq<real>, c: real, total: real, n: real)
    requires c != 0.0 && total == n * c && total != 0.0 && n == |ds| as real && n != 0.0
    requires forall i :: 0 <= i < |ds| ==> ds[i] == c
    ensures n * SumOfSquaredShares(ds, total) == 1.0
  {
    var r := c / total;
    EqualShares(ds, c, total, r, n);
    UnitShares(n, c, total, r, SumOfSquaredShares(ds, total));
  }

  /** `n` equal non-zero durations `c` add up to the non-zero total `n * c`. */
  lemma EqualTotal(ds: seq<real>, c: real, total: real, n: real)
    requires |ds| > 0 && c != 0.0 && total == Sum(ds) && n == |ds| as real
    requires forall i :: 0 <= i < |ds| ==> ds[i] == c
    ensures total == n * c && total != 0.0
  {
    EqualSum(ds, c);
    NonZeroProduct(n, c);
  }

  /** Equal durations `c` of a non-zero total all have the share `r == c / total`. */
  lemma EqualShares(ds: seq<real>, c: real, total: real, r: real, n: real)
    requires total != 0.0 && r == c / total && n == |ds| as real
    requires forall i :: 0 <= i < |ds| ==> ds[i] == c
    ensures SumOfSquaredShares(ds, total) == n * (r * r)
  {
    var ps := Shares(ds, total);
    forall i | 0 <= i < |ps| ensures ps[i] == r {
    }
    EqualSquares(ps, r);
  }

  /** Equal non-zero durations over all `S` cells give dispersion 1. */
  lemma EvenFormula(cells: int, ds: seq<real>, c: real, total: real)
    requires cells >= 2 && |ds| == cells
    requires c != 0.0 && total == Sum(ds)
    requires forall i :: 0 <= i < |ds| ==> ds[i] == c
    ensures total != 0.0
    ensures Formula(cells, SumOfSquaredShares(ds, total)) == 1.0
  {
    EvenShares(ds, c, total, cells as real);
    FormulaExtremes(cells, SumOfSquaredShares(ds, total));
  }

  lemma UnitShares(n: real, c: real, total: real, r: real, a: real)
    requires total == n * c && c != 0.0 && n != 0.0 && r == c / total
    requires a == n * (r * r)
    ensures n * a == 1.0
  {
    assert n * r == 1.0;
    assert n * a == (n * r) * (n * r);
  }

  lemma NonZeroProduct(a: real, b: real)
    requires a != 0.0 && b != 0.0
    ensures a * b != 0.0
  {
  }

  /**
   * The formula is 0 when all time is in one cell (the squared shares sum to
   * 1) and 1 when the time is spread evenly over all `S` cells (they sum to `1 / S`).
   */
  lemma FormulaExtremes(cells: int, squaredShares: real)
    requires cells >= 2
    ensures Formula(cells, 1.0) == 0.0
    ensures Formula(cells, 1.0 / cells as real) == 1.0
    ensures cells as real * squaredShares == 1.0 ==> Formula(cells, squaredShares) == 1.0
  {
    var s := cells as real;
    assert s * (1.0 / s) == 1.0;
  }

  /** With the squared shares between `1 / k` and 1 and at most `S` visited cells, the formula lies in [0, 1]. */
  lemma FormulaBounds(cells: int, visited: nat, squaredShares: real)
    requires cells >= 2 && 1 <= visited <= cells
    requires 1.0 / visited as real <= squaredShares <= 1.0
    ensures 0.0 <= Formula(cells, squaredShares) <= 1.0
  {
    var s, k := cells as real, visited as real;
    ReciprocalOrder(k, s);
    ScaleOrder(s, 1.0 / s, squaredShares);
    ScaleOrder(s, squaredShares, 1.0);
    assert s * (1.0 / s) == 1.0;
    UnitQuotient(s * squaredShares - 1.0, s - 1.0);
  }

  lemma ReciprocalOrder(k: real, s: real)
    requires 0.0 < k <= s
    ensures 1.0 / s <= 1.0 / k
  {
  }

  lemma ScaleOrder(s: real, a: real, b: real)
    requires s > 0.0 && a <= b
    ensures s * a <= s * b
  {
  }

  /** A value between 0 and a positive `d`, divided by `d`, lies in [0, 1]. */
  lemma UnitQuotient(x: real, d: real)
    requires d > 0.0 && 0.0 <= x <= d
    ensures 0.0 <= x / d <= 1.0
  {
  }

  // ---------------------------------------------------------------------
  // How many cells a trajectory can visit

  /** The cells of the grid spanned by two ranges. */
  ghost function Grid<X, Y>(xs: seq<X>, ys: seq<Y>): set<State<X, Y>> {
    set a, b | a in xs && b in ys :: State(a, b)
  }

  lemma {:induction false} RowCardinality<X, Y>(a: X, ys: seq<Y>)
    ensures |Grid([a], ys)| <= |ys|
  {
    if ys != [] {
      RowCardinality(a, ys[1..]);
      assert Grid([a], ys) == Grid([a], ys[1..]) + {State(a, ys[0])} by {
        assert ys == [ys[0]] + ys[1..];
      }
    }
  }

  lemma {:induction false} GridCardinality<X, Y>(xs: seq<X>, ys: seq<Y>)
    ensures |Grid(xs, ys)| <= |xs| * |ys|
  {
    if xs != [] {
      GridCardinality(xs[1..], ys);
      RowCardinality(xs[0], ys);
      var row, others := Grid([xs[0]], ys), Grid(xs[1..], ys);
      assert Grid(xs, ys) == row + others by {
        assert xs == [xs[0]] + xs[1..];
      }
      UnionCardinality(row, others);
      ProductStep(|xs[1..]|, |ys|);
    }
  }

  lemma UnionCardinality<T>(a: set<T>, b: set<T>)
    ensures |a + b| <= |a| + |b|
  {
    assert a + b == a + (b - a);
    assert |b| == |b - a| + |b * a| by {
      assert b == (b - a) + (b * a);
    }
  }

  lemma ProductStep(m: nat, n: nat)
    ensures (m + 1) * n == n + m * n
  {
  }

  lemma SubsetCardinality<T>(a: set<T>, b: set<T>)
    requires a <= b
    ensures |a| <= |b|
  {
    assert b == a + (b - a);
  }

  /** A trajectory inside its state space visits at most `|x_range| * |y_range|` distinct cells. */
  lemma VisitedCellsBounded<X, Y>(t: Trajectory<X, Y>)
    requires Valid(t)
    ensures |Elements(t.states)| <= |t.space.xRange| * |t.space.yRange|
  {
    assert Elements(t.states) <= Grid(t.space.xRange, t.space.yRange) by {
      forall s | s in Elements(t.states) ensures s in Grid(t.space.xRange, t.space.yRange) {
        var i :| 0 <= i < |t.states| && t.states[i] == s;
        assert InSpace(t.states[i], t.space);
      }
    }
    GridCardinality(t.space.xRange, t.space.yRange);
    SubsetCardinality(Elements(t.states), Grid(t.space.xRange, t.space.yRange));
  }
}

=== FILE: durations.dfy ===
/**
 * Per-state summed durations (`__get_state_durations` in
 * statespacegrid/measure.py): a `defaultdict(float)` filled by one pass over
 * the events. Python dictionaries keep insertion order, so the model is an
 * association list in order of each state's first occurrence.
 */
module StateDurations {
  import opened SeqMath

  datatype Entry<S> = Entry(state: S, duration: real)

  /** The keys of the dictionary, in insertion order. */
  function Keys<S>(es: seq<Entry<S>>): (ks: seq<S>)
    ensures |ks| == |es|
    ensures forall i :: 0 <= i < |es| ==> ks[i] == es[i].state
  {
    seq(|es|, i requires 0 <= i < |es| => es[i].state)
  }

  /** The dictionary's `values()`, in insertion order. */
  function Durations<S>(es: seq<Entry<S>>): (ds: seq<real>)
    ensures |ds| == |es|
    ensures forall i :: 0 <= i < |es| ==> ds[i] == es[i].duration
  {
    seq(|es|, i requires 0 <= i < |es| => es[i].duration)
  }

  /** `state_durations[s]` of a `defaultdict(float)`: 0.0 for a missing key. */
  function Lookup<S(==)>(es: seq<Entry<S>>, s: S): real {
    if |es| == 0 then 0.0
    else if es[0].state == s then es[0].duration
    else Lookup(es[1..], s)
  }

  predicate AllPositive<S>(es: seq<Entry<S>>) {
    forall i :: 0 <= i < |es| ==> es[i].duration > 0.0
  }

  /** The keys of a non-empty dictionary are its first key followed by the keys of the rest. */
  lemma KeysTail<S>(es: seq<Entry<S>>)
    requires |es| > 0
    ensures Keys(es) == [es[0].state] + Keys(es[1..])
    ensures Durations(es) == [es[0].duration] + Durations(es[1..])
  {
    KeysCons(es[0], es[1..]);
    assert es == [es[0]] + es[1..];
  }

  lemma KeysCons<S>(e: Entry<S>, rest: seq<Entry<S>>)
    ensures Keys([e] + rest) == [e.state] + Keys(rest)
    ensures Durations([e] + rest) == [e.duration] + Durations(rest)
  {
    var es := [e] + rest;
    assert forall i :: 0 < i < |es| ==> es[i] == rest[i - 1];
    assert Keys(es) == [e.state] + Keys(rest);
    assert Durations(es) == [e.duration] + Durations(rest);
  }

  /** Dropping the first entry of a duplicate-free dictionary leaves one without its first key. */
  lemma DistinctTail<S>(es: seq<Entry<S>>)
    requires |es| > 0 && Distinct(Keys(es))
    ensures Distinct(Keys(es[1..]))
    ensures es[0].state !in Keys(es[1..])
  {
    var ks := Keys(es[1..]);
    forall i, j | 0 <= i < j < |ks| ensures ks[i] != ks[j] {
      assert ks[i] == Keys(es)[i + 1] && ks[j] == Keys(es)[j + 1];
    }
    forall i | 0 <= i < |ks| ensures ks[i] != es[0].state {
      assert ks[i] == Keys(es)[i + 1];
    }
  }

  /**
   * `state_durations[s] += d`: an existing key keeps its place and grows by
   * `d`; a new key is appended with `d`. What this does to the keys, the
   * values and the lookups is stated by the lemmas below.
   */
  function Add<S(==)>(es: seq<Entry<S>>, s: S, d: real): seq<Entry<S>> {
    if |es| == 0 then [Entry(s, d)]
    else if es[0].state == s then [Entry(s, es[0].duration + d)] + es[1..]
    else [es[0]] + Add(es[1..], s, d)
  }

  /** After adding under `s`, the keys are the old keys and `s`. */
  lemma {:induction false} AddKeys<S>(es: seq<Entry<S>>, s: S, d: real, k: S)
    ensures k in Keys(Add(es, s, d)) <==> k == s || k in Keys(es)
  {
    var r := Add(es, s, d);
    if |es| == 0 {
      assert Keys(r) == [s];
    } else {
      KeysTail(es);
      KeysTail(r);
      if es[0].state != s {
        AddKeys(es[1..], s, d, k);
        assert r[1..] == Add(es[1..], s, d);
      } else {
        assert r[1..] == es[1..];
      }
    }
  }

  /** Adding under an existing key leaves the keys and their order unchanged. */
  lemma {:induction false} AddExisting<S>(es: seq<Entry<S>>, s: S, d: real)
    requires s in Keys(es)
    ensures Keys(Add(es, s, d)) == Keys(es)
  {
    var r := Add(es, s, d);
    KeysTail(es);
    KeysTail(r);
    if es[0].state != s {
      AddExisting(es[1..], s, d);
      assert r[1..] == Add(es[1..], s, d);
    } else {
      assert r[1..] == es[1..];
    }
  }

  /** A state that is not yet a key is appended after every existing entry. */
  lemma {:induction false} AddAppends<S>(es: seq<Entry<S>>, s: S, d: real)
    requires s !in Keys(es)
    ensures Add(es, s, d) == es + [Entry(s, d)]
  {
    if |es| > 0 {
      KeysTail(es);
      AddAppends(es[1..], s, d);
      assert es == [es[0]] + es[1..];
    }
  }

  /** After adding under `s`, the key set is the old key set and `s`. */
  lemma AddElements<S>(es: seq<Entry<S>>, s: S, d: real)
    ensures Elements(Keys(Add(es, s, d))) == Elements(Keys(es)) + {s}
  {
    var after, before := Elements(Keys(Add(es, s, d))), Elements(Keys(es)) + {s};
    forall k ensures k in after <==> k in before {
      AddKeys(es, s, d, k);
    }
  }

  /** Adding keeps the keys free of duplicates. */
  lemma AddDistinct<S>(es: seq<Entry<S>>, s: S, d: real)
    requires Distinct(Keys(es))
    ensures Distinct(Keys(Add(es, s, d)))
  {
    if s in Keys(es) {
      AddExisting(es, s, d);
    } else {
      AddAppends(es, s, d);
      var ks := Keys(es + [Entry(s, d)]);
      assert ks == Keys(es) + [s];
      forall i, j | 0 <= i < j < |ks| ensures ks[i] != ks[j] {
        if j == |es| {
          assert ks[i] == Keys(es)[i];
        }
      }
    }
  }

  /** Adding `d` adds `d` to the sum of the values. */
  lemma {:induction false} AddSum<S>(es: seq<Entry<S>>, s: S, d: real)
    ensures Sum(Durations(Add(es, s, d))) == Sum(Durations(es)) + d
  {
    var r := Add(es, s, d);
    if |es| == 0 {
      assert Durations(r) == [d];
    } else {
      KeysTail(es);
      KeysTail(r);
      if es[0].state != s {
        AddSum(es[1..], s, d);
        assert r[1..] == Add(es[1..], s, d);
      } else {
        assert r[1..] == es[1..];
      }
    }
  }

  /** Adding a positive duration keeps every value positive. */
  lemma AddPositive<S>(es: seq<Entry<S>>, s: S, d: real)
    requires AllPositive(es) && d > 0.0
    ensures AllPositive(Add(es, s, d))
  {
    var r := Add(es, s, d);
    if |es| > 0 && es[0].state != s {
      assert AllPositive(es[1..]) by {
        forall i | 0 <= i < |es[1..]| ensures es[1..][i].duration > 0.0 {
          assert es[1..][i] == es[i + 1];
        }
      }
      AddPositive(es[1..], s, d);
      assert r[1..] == Add(es[1..], s, d);
      forall i | 0 <= i < |r| ensures r[i].duration > 0.0 {
        if i > 0 {
          assert r[i] == r[1..][i - 1];
        }
      }
    } else if |es| > 0 {
      forall i | 0 <= i < |r| ensures r[i].duration > 0.0 {
        if i > 0 {
          assert r[i] == es[i];
        }
      }
    }
  }

  /** Adding `d` under `s` changes what `s` reads by `d` and what every other state `k` reads not at all. */
  lemma {:induction false} AddLookup<S>(es: seq<Entry<S>>, s: S, d: real, k: S)
    ensures Lookup(Add(es, s, d), k) == Lookup(es, k) + (if k == s then d else 0.0)
  {
    if |es| > 0 && es[0].state != s {
      AddLookup(es[1..], s, d, k);
      assert Add(es, s, d)[1..] == Add(es[1..], s, d);
    } else if |es| > 0 {
      assert Add(es, s, d)[1..] == es[1..];
    }
  }

  /** In a duplicate-free dictionary, reading an entry's key gives that entry's value. */
  lemma {:induction false} LookupEntry<S>(es: seq<Entry<S>>, i: nat)
    requires Distinct(Keys(es))
    requires i < |es|
    ensures Lookup(es, es[i].state) == es[i].duration
  {
    if i > 0 {
      assert Keys(es)[0] != Keys(es)[i];
      DistinctTail(es);
      LookupEntry(es[1..], i - 1);
    }
  }

  /** A state that is not a key reads 0.0. */
  lemma {:induction false} NotKeyLookup<S>(es: seq<Entry<S>>, s: S)
    requires s !in Keys(es)
    ensures Lookup(es, s) == 0.0
  {
    if |es| > 0 {
      KeysTail(es);
      NotKeyLookup(es[1..], s);
    }
  }

  /** Taking out the entry at `k` takes its key and its value out of the keys and the values. */
  lemma KeysRemove<S>(es: seq<Entry<S>>, k: int)
    requires 0 <= k < |es|
    ensures Keys(es[..k] + es[k + 1..]) == Keys(es)[..k] + Keys(es)[k + 1..]
    ensures Durations(es[..k] + es[k + 1..]) == Durations(es)[..k] + Durations(es)[k + 1..]
  {
    var rest := es[..k] + es[k + 1..];
    forall i | 0 <= i < |rest| ensures rest[i] == if i < k then es[i] else es[i + 1] {
    }
  }

  /**
   * Two dictionaries with the same keys, that agree on the value of every
   * key, hold the same values, whatever order the keys were inserted in.
   */
  lemma {:induction false} EntriesPermutation<S>(a: seq<Entry<S>>, b: seq<Entry<S>>)
    requires multiset(Keys(a)) == multiset(Keys(b))
    requires forall i, j :: 0 <= i < |a| && 0 <= j < |b| && a[i].state == b[j].state ==> a[i].duration == b[j].duration
    ensures multiset(Durations(a)) == multiset(Durations(b))
  {
    if |a| == 0 {
      assert |Keys(b)| == |multiset(Keys(b))| == 0;
      assert Durations(a) == [] == Durations(b);
    } else {
      var k := MatchFirst(Keys(a), Keys(b));
      var rest := b[..k] + b[k + 1..];
      KeysTail(a);
      KeysRemove(b, k);
      RemoveMatching(Keys(a), Keys(b), k);
      forall i, j | 0 <= i < |a[1..]| && 0 <= j < |rest| && a[1..][i].state == rest[j].state
        ensures a[1..][i].duration == rest[j].duration
      {
        assert a[1..][i] == a[i + 1];
        assert rest[j] == if j < k then b[j] else b[j + 1];
      }
      EntriesPermutation(a[1..], rest);
      assert a[0].state == Keys(a)[0] == Keys(b)[k] == b[k].state;
      RestoreMatching(Durations(b)[k], Durations(a[1..]), Durations(b), k);
    }
  }

  /**
   * The time spent in state `s` over the first `n` events, summed event by
   * event: the reference each dictionary value is compared against.
   */
  function Occupancy<S(==)>(states: seq<S>, times: seq<real>, s: S, n: nat): real
    requires |times| == |states| + 1 && n <= |states|
  {
    if n == 0 then 0.0
    else Occupancy(states, times, s, n - 1) + (if states[n - 1] == s then times[n] - times[n - 1] else 0.0)
  }

  /**
   * The dictionary after the first `n` iterations of the loop over
   * `zip(times, times[1:], states)`.
   */
  function Accumulate<S(==)>(states: seq<S>, times: seq<real>, n: nat): seq<Entry<S>>
    requires |times| == |states| + 1 && n <= |states|
  {
    if n == 0 then []
    else Add(Accumulate(states, times, n - 1), states[n - 1], times[n] - times[n - 1])
  }

  /** After `n` iterations the keys are free of duplicates. */
  lemma {:induction false} AccumulateDistinct<S>(states: seq<S>, times: seq<real>, n: nat)
    requires |times| == |states| + 1 && n <= |states|
    ensures Distinct(Keys(Accumulate(states, times, n)))
  {
    if n > 0 {
      var prev := Accumulate(states, times, n - 1);
      var r := Add(prev, states[n - 1], times[n] - times[n - 1]);
      assert Distinct(Keys(r)) by {
        AccumulateDistinct(states, times, n - 1);
        AddDistinct(prev, states[n - 1], times[n] - times[n - 1]);
      }
      AccumulateStep(states, times, n);
    }
  }

  /** After `n` iterations the keys are the distinct states of the first `n` events. */
  lemma {:induction false} AccumulateKeys<S>(states: seq<S>, times: seq<real>, n: nat)
    requires |times| == |states| + 1 && n <= |states|
    ensures Elements(Keys(Accumulate(states, times, n))) == Elements(states[..n])
  {
    if n > 0 {
      AccumulateKeys(states, times, n - 1);
      var x := states[n - 1];
      AccumulateStep(states, times, n);
      AddElements(Accumulate(states, times, n - 1), x, times[n] - times[n - 1]);
      ElementsSnoc(states[..n - 1], x);
      assert states[..n - 1] + [x] == states[..n];
    }
  }

  /**
   * After `n` iterations the values add up to the time the first `n` events
   * span, and with strictly increasing timestamps every value is positive.
   */
  lemma {:induction false} AccumulateSum<S>(states: seq<S>, times: seq<real>, n: nat)
    requires |times| == |states| + 1 && n <= |states|
    ensures Sum(Durations(Accumulate(states, times, n))) == times[n] - times[0]
    ensures StrictlyIncreasing(times) ==> AllPositive(Accumulate(states, times, n))
  {
    if n > 0 {
      AccumulateSum(states, times, n - 1);
      var prev := Accumulate(states, times, n - 1);
      var x, d := states[n - 1], times[n] - times[n - 1];
      AccumulateStep(states, times, n);
      AddSum(prev, x, d);
      if StrictlyIncreasing(times) {
        assert times[n - 1] < times[n];
        AddPositive(prev, x, d);
      }
    }
  }

  /** After `n` iterations the state `s` reads the time it occupied during the first `n` events. */
  lemma {:induction false} AccumulateLookup<S>(states: seq<S>, times: seq<real>, n: nat, s: S)
    requires |times| == |states| + 1 && n <= |states|
    ensures Lookup(Accumulate(states, times, n), s) == Occupancy(states, times, s, n)
  {
    if n > 0 {
      var prev := Accumulate(states, times, n - 1);
      var x, d := states[n - 1], times[n] - times[n - 1];
      AccumulateStep(states, times, n);
      AccumulateLookup(states, times, n - 1, s);
      AddLookup(prev, x, d, s);
    }
  }

  /** `ks` are in first-occurrence order in `states`, each first reached before event `n`. */
  predicate ReachedInOrder<S(==)>(ks: seq<S>, states: seq<S>, n: nat) {
    && InFirstOccurrenceOrder(ks, states)
    && (forall i :: 0 <= i < |ks| ==> FirstIndex(states, ks[i]) < n)
  }

  /**
   * After `n` iterations the keys are listed in the order in which the first
   * `n` events first reach them.
   */
  lemma {:induction false} AccumulateOrder<S>(states: seq<S>, times: seq<real>, n: nat)
    requires |times| == |states| + 1 && n <= |states|
    ensures ReachedInOrder(Keys(Accumulate(states, times, n)), states, n)
  {
    if n > 0 {
      var ks, before := Keys(Accumulate(states, times, n)), Keys(Accumulate(states, times, n - 1));
      AccumulateOrder(states, times, n - 1);
      AccumulateKeysStep(states, times, n);
      if states[n - 1] in before {
        ReachedEarlier(ks, before, states, n - 1);
      } else {
        NotYetReached(states, times, n - 1);
        AppendFirstOccurrence(ks, before, states, n - 1);
      }
    }
  }

  /** One more iteration either leaves the keys alone or appends the new event's state. */
  lemma AccumulateKeysStep<S>(states: seq<S>, times: seq<real>, n: nat)
    requires |times| == |states| + 1 && 0 < n <= |states|
    ensures var before := Keys(Accumulate(states, times, n - 1));
            Keys(Accumulate(states, times, n))
            == if states[n - 1] in before then before else before + [states[n - 1]]
  {
    var prev := Accumulate(states, times, n - 1);
    var x, d := states[n - 1], times[n] - times[n - 1];
    AccumulateStep(states, times, n);
    if x in Keys(prev) {
      AddExisting(prev, x, d);
    } else {
      AddAppends(prev, x, d);
      assert Keys(prev + [Entry(x, d)]) == Keys(prev) + [x];
    }
  }

  /** A state that is not a key after `m` iterations does not occur among the first `m` events. */
  lemma NotYetReached<S>(states: seq<S>, times: seq<real>, m: nat)
    requires |times| == |states| + 1 && m < |states|
    requires states[m] !in Keys(Accumulate(states, times, m))
    ensures states[m] !in states[..m]
  {
    AccumulateKeys(states, times, m);
    assert states[m] !in Elements(Keys(Accumulate(states, times, m)));
  }

  lemma ReachedEarlier<S>(ks: seq<S>, before: seq<S>, states: seq<S>, n: nat)
    requires ks == before && ReachedInOrder(before, states, n)
    ensures ReachedInOrder(ks, states, n + 1)
  {
  }

  /** A state reached for the first time at event `m` goes after every key first reached before `m`. */
  lemma AppendFirstOccurrence<S>(ks: seq<S>, before: seq<S>, states: seq<S>, m: nat)
    requires m < |states| && states[m] !in states[..m]
    requires ks == before + [states[m]] && ReachedInOrder(before, states, m)
    ensures ReachedInOrder(ks, states, m + 1)
  {
    var x := states[m];
    assert FirstIndex(states, x) == m by {
      forall k | 0 <= k < m ensures states[k] != x {
        assert states[k] == states[..m][k];
      }
    }
    forall i | 0 <= i < |ks| ensures ks[i] in states && FirstIndex(states, ks[i]) < m + 1 {
      if i < |before| {
        assert ks[i] == before[i];
      }
    }
    forall i, j | 0 <= i < j < |ks| ensures FirstIndex(states, ks[i]) < FirstIndex(states, ks[j]) {
      assert ks[i] == before[i];
      if j < |before| {
        assert ks[j] == before[j];
      }
    }
  }

  /** One more iteration of the loop adds the next event's duration under its state. */
  lemma AccumulateStep<S>(states: seq<S>, times: seq<real>, n: nat)
    requires |times| == |states| + 1 && 0 < n <= |states|
    ensures Accumulate(states, times, n)
            == Add(Accumulate(states, times, n - 1), states[n - 1], times[n] - times[n - 1])
  {
  }

  /**
   * `__get_state_durations(traj)`: one entry per distinct state, in order of
   * first occurrence, holding the total time spent in that state.
   */
  function StateDurations<S(==)>(states: seq<S>, times: seq<real>): (es: seq<Entry<S>>)
    requires |times| == |states| + 1
    ensures Distinct(Keys(es))
    ensures Elements(Keys(es)) == Elements(states)
    ensures |es| == |Elements(states)|
    ensures Sum(Durations(es)) == times[|times| - 1] - times[0]
    ensures forall i :: 0 <= i < |es| ==> es[i].duration == Occupancy(states, times, es[i].state, |states|)
    ensures StrictlyIncreasing(times) ==> AllPositive(es)
  {
    var es := Accumulate(states, times, |states|);
    AccumulateDistinct(states, times, |states|);
    AccumulateKeys(states, times, |states|);
    AccumulateSum(states, times, |states|);
    assert states[..|states|] == states;
    DistinctCardinality(Keys(es));
    assert forall i :: 0 <= i < |es| ==> es[i].duration == Occupancy(states, times, es[i].state, |states|) by {
      forall i | 0 <= i < |es| ensures es[i].duration == Occupancy(states, times, es[i].state, |states|) {
        LookupEntry(es, i);
        AccumulateLookup(states, times, |states|, es[i].state);
      }
    }
    es
  }

  /** The entries come in the order in which the trajectory first reaches their states. */
  lemma StateDurationsOrder<S>(states: seq<S>, times: seq<real>)
    requires |times| == |states| + 1
    ensures InFirstOccurrenceOrder(Keys(StateDurations(states, times)), states)
  {
    AccumulateOrder(states, times, |states|);
    assert states[..|states|] == states;
  }

  /**
   * Read as a `defaultdict`, the state durations give every state, visited
   * or not, exactly the time the trajectory spent in it.
   */
  lemma StateDurationsLookup<S>(states: seq<S>, times: seq<real>, s: S)
    requires |times| == |states| + 1
    ensures Lookup(StateDurations(states, times), s) == Occupancy(states, times, s, |states|)
  {
    AccumulateLookup(states, times, |states|, s);
  }

  /** A state the trajectory never occupies has no entry; one it occupies has its own entry. */
  lemma EntryForEachState<S>(states: seq<S>, times: seq<real>, s: S)
    requires |times| == |states| + 1
    ensures s in Keys(StateDurations(states, times)) <==> s in states
  {
    var es := StateDurations(states, times);
    assert s in Keys(es) <==> s in Elements(Keys(es));
  }

  /** With strictly increasing timestamps, a state has occupied time exactly when the trajectory visits it. */
  lemma OccupiedIffVisited<S>(states: seq<S>, times: seq<real>, s: S)
    requires |times| == |states| + 1 && StrictlyIncreasing(times)
    ensures Occupancy(states, times, s, |states|) > 0.0 <==> s in states
  {
    var es := StateDurations(states, times);
    EntryForEachState(states, times, s);
    StateDurationsLookup(states, times, s);
    if s in Keys(es) {
      var i :| 0 <= i < |es| && Keys(es)[i] == s;
      LookupEntry(es, i);
    } else {
      NotKeyLookup(es, s);
    }
  }
}

=== FILE: errors.dfy ===
/**
 * The failures the measure engine can report, so that the model can say
 * which check failed first instead of assuming valid input. There is one
 * constructor per distinct `ValueError` message or Python runtime failure,
 * not one per `raise`: the x- and y-axis checks of `validate_trajectories`
 * raise the same messages and share `StateSpaceMismatch` and
 * `StateSpaceOrder`, and `NoEvents` covers both runtime errors a trajectory
 * without events causes.
 */
module Errors {

  datatype Error =
    // Trajectory construction (trajectory.py, in the order the checks run)
    | StateNotSequence     // a state is neither a tuple nor a list
    | StateNotPair         // a state does not have exactly two items
    | EventCountMismatch   // number of states is not number of timestamps minus 1
    | TimeNotNumeric       // a timestamp is neither an int nor a float
    | StateOutOfRange      // a state coordinate is not in its axis range
    | TimesNotAscending    // timestamps are not strictly increasing
    // Cross-trajectory validation (measure.py, validate_trajectories)
    | NoTrajectories       // "You must provide at least 1 trajectory"
    | StateSpaceMismatch   // an axis' range set differs from the union over all trajectories
    | StateSpaceOrder      // an axis' ranges disagree position by position with the first one
    // Measure computation
    | NoEvents             // no states: IndexError on states[0], StatisticsError from a mean of nothing
    | DegenerateStateSpace // dispersion divides by S - 1 with S == 1

  /** A value or the error that prevented computing it. */
  datatype Result<+T> = Ok(value: T) | Err(error: Error) {
    predicate IsFailure() {
      Err?
    }

    function PropagateFailure<U>(): Result<U>
      requires Err?
    {
      Err(error)
    }

    function Extract(): T
      requires Ok?
    {
      value
    }
  }

  /** The outcome of a check that returns nothing when it passes. */
  datatype Outcome = Pass | Fail(error: Error)
}

=== FILE: fixtures.dfy ===
/**
 * The library's own test scenarios (StateSpaceGridLib/statespacegrid/test/),
 * restated as lemmas about the model. Labels in those tests are strings and
 * integers, sometimes mixed on one axis, so they share one label type.
 */
module Fixtures {
  import opened Errors
  import opened SeqMath
  import opened Trajectories
  import opened Visits
  import opened StateDurations
  import opened Dispersion
  import opened Validation
  import opened Measure

  /** The words "bad", "ok" and "good", and integer labels. */
  datatype Label = BadLabel | OkLabel | GoodLabel | Num(n: int)

  // ---------------------------------------------------------------------
  // Construction

  /**
   * The constructor's rejections: a missing or extra timestamp, a
   * non-numeric timestamp, a bare value among the states, a one-item list,
   * and a state outside the default 1..4 ranges.
   */
  lemma ConstructionRejections()
    ensures Construct([1, 2, 3, 4], [1, 2, 3, 4], [], []) == Err(EventCountMismatch)
    ensures Construct([1, 2, 3, 4], [1, 2, 3, 4], [], [Number(0.0), Number(1.0), Number(2.0)])
            == Err(EventCountMismatch)
    ensures Construct([1, 2, 3, 4], [1, 2, 3, 4], [], [NonNumber]) == Err(TimeNotNumeric)
    ensures Construct([1, 2, 3, 4], [1, 2, 3, 4], [Pair(1, 1), Atom],
                      [Number(0.0), Number(1.0), Number(2.0), Number(3.0)])
            == Err(StateNotSequence)
    ensures Construct([1, 2, 3, 4], [1, 2, 3, 4], [Pair(1, 1), Items(1)],
                      [Number(0.0), Number(1.0), Number(2.0), Number(3.0)])
            == Err(StateNotPair)
    ensures Construct([1, 2, 3, 4], [1, 2, 3, 4], [Pair(0, 10)], [Number(0.0), Number(1.0)])
            == Err(StateOutOfRange)
  {
    var bare: seq<RawState<int, int>> := [Pair(1, 1), Atom];
    assert bare[1].Atom?;
    var short: seq<RawState<int, int>> := [Pair(1, 1), Items(1)];
    assert Arity(short[1]) == 1;
    var outside: seq<RawState<int, int>> := [Pair(0, 10)];
    assert outside[0].x !in [1, 2, 3, 4];
  }

  /** Ranges given alone are kept as given, with no events. */
  lemma StateSpaceDefinition()
    ensures Construct([0, 1, 2, 3], [4, 5, 6, 7], [], [Number(0.0)])
            == Ok(Trajectory(StateSpace([0, 1, 2, 3], [4, 5, 6, 7]), [], [0.0]))
  {
    var t := Trajectory(StateSpace([0, 1, 2, 3], [4, 5, 6, 7]), [], [0.0]);
    ConstructValid(t);
    assert RawStates(t.states) == [];
    assert RawTimes(t.times) == [Number(0.0)];
  }

  // ---------------------------------------------------------------------
  // The two trajectories of the measure tests, on the 3 x 3 grid of
  // ["bad", "ok", "good"] on both axes

  function Words(): seq<Label> {
    [BadLabel, OkLabel, GoodLabel]
  }

  function Grid3(): StateSpace<Label, Label> {
    StateSpace(Words(), Words())
  }

  /** Three events in three different cells, over one time unit. */
  function First(): Trajectory<Label, Label> {
    Trajectory(Grid3(),
               [State(BadLabel, BadLabel), State(OkLabel, OkLabel), State(GoodLabel, GoodLabel)],
               [1.0, 1.1, 1.5, 2.0])
  }

  /** Five events, a repeated cell and a return to the first cell, over two time units. */
  function Second(): Trajectory<Label, Label> {
    Trajectory(Grid3(),
               [State(BadLabel, GoodLabel), State(OkLabel, OkLabel), State(OkLabel, OkLabel),
                State(GoodLabel, BadLabel), State(BadLabel, GoodLabel)],
               [0.0, 0.9, 1.0, 1.5, 1.7, 2.0])
  }

  lemma FirstValid()
    ensures Valid(First())
    ensures GridSize(First().space) == 9
  {
  }

  lemma SecondValid()
    ensures Valid(Second())
    ensures GridSize(Second().space) == 9
  {
  }

  /**
   * `test_correct_values_single_trajectory`, first trajectory: duration 1,
   * 3 events, 3 visits, 3 distinct states, each duration mean 1/3 and
   * dispersion 0.6525.
   */
  function FirstReport(): Measures {
    Measures(1.0, 3.0, 3.0, 3.0, 3, 1.0 / 3.0, 1.0 / 3.0, 1.0 / 3.0, 0.6525)
  }

  lemma FirstProfile(t: Trajectory<Label, Label>)
    requires t == First()
    ensures Valid(t) && |t.states| > 0 && GridSize(t.space) != 1
    ensures Profile(t) == FirstReport()
  {
    FirstFacts(t);
  }

  /** The counts behind the first trajectory's values: three events in three different cells. */
  lemma FirstFacts(t: Trajectory<Label, Label>)
    requires t == First()
    ensures Valid(t) && GridSize(t.space) == 9
    ensures Duration(t) == 1.0 && |t.states| == 3
    ensures |Visits.Visits(t.states)| == 3 && |Elements(t.states)| == 3
    ensures TrajectoryDispersion(t) == Ok(0.6525)
  {
    FirstValid();
    assert NoRepeats(t.states);
    assert Distinct(t.states);
    DistinctCardinality(t.states);
    FirstDispersion(t);
  }

  lemma FirstDispersion(t: Trajectory<Label, Label>)
    requires t == First()
    ensures Valid(t)
    ensures TrajectoryDispersion(t) == Ok(0.6525)
  {
    FirstValid();
    FirstStateDurations();
    assert Duration(t) == 1.0 && GridSize(t.space) == 9;
    FirstShares();
  }

  /** Shares 0.1, 0.4 and 0.5 of one time unit: squares summing to 0.42, dispersion 0.6525 on nine cells. */
  lemma FirstShares()
    ensures SumOfSquaredShares([0.1, 0.4, 0.5], 1.0) == 0.42
    ensures Formula(9, 0.42) == 0.6525
  {
    var ds := [0.1, 0.4, 0.5];
    assert Shares(ds, 1.0) == ds;
  }

  /** The time per cell of the first trajectory, in order of first visit. */
  lemma FirstStateDurations()
    ensures Durations(StateDurations.StateDurations(First().states, First().times)) == [0.1, 0.4, 0.5]
  {
    var t := First();
    var a, b, c := t.states[0], t.states[1], t.states[2];
    var e1 := Accumulate(t.states, t.times, 1);
    assert e1 == Add([], a, 0.1) == [Entry(a, 0.1)];
    var e2 := Accumulate(t.states, t.times, 2);
    assert e2 == Add(e1, b, 0.4) == [Entry(a, 0.1), Entry(b, 0.4)];
    var e3 := Accumulate(t.states, t.times, 3);
    assert e3 == Add(e2, c, 0.5) == [Entry(a, 0.1), Entry(b, 0.4), Entry(c, 0.5)];
  }

  /**
   * `test_correct_values_single_trajectory`, second trajectory: duration 2,
   * 5 events, 4 visits (the two middle events are one visit), 3 distinct
   * states, mean durations 0.4, 0.5 and 2/3, and dispersion 0.6075.
   */
  function SecondReport(): Measures {
    Measures(2.0, 5.0, 4.0, 3.0, 3, 0.4, 0.5, 2.0 / 3.0, 0.6075)
  }

  lemma SecondProfile(t: Trajectory<Label, Label>)
    requires t == Second()
    ensures Valid(t) && |t.states| > 0 && GridSize(t.space) != 1
    ensures Profile(t) == SecondReport()
  {
    SecondFacts(t);
  }

  /** The counts behind the second trajectory's values: five events, four visits, three cells. */
  lemma SecondFacts(t: Trajectory<Label, Label>)
    requires t == Second()
    ensures Valid(t) && GridSize(t.space) == 9
    ensures Duration(t) == 2.0 && |t.states| == 5
    ensures |Visits.Visits(t.states)| == 4 && |Elements(t.states)| == 3
    ensures TrajectoryDispersion(t) == Ok(0.6075)
  {
    SecondValid();
    SecondVisits();
    SecondStateCount();
    SecondDispersion(t);
  }

  lemma SecondDispersion(t: Trajectory<Label, Label>)
    requires t == Second()
    ensures Valid(t)
    ensures TrajectoryDispersion(t) == Ok(0.6075)
  {
    SecondValid();
    SecondStateDurations();
    assert Duration(t) == 2.0 && GridSize(t.space) == 9;
    SecondShares();
  }

  /** Shares 0.6, 0.3 and 0.1 of two time units: squares summing to 0.46, dispersion 0.6075 on nine cells. */
  lemma SecondShares()
    ensures SumOfSquaredShares([1.2, 0.6, 0.2], 2.0) == 0.46
    ensures Formula(9, 0.46) == 0.6075
  {
    assert Shares([1.2, 0.6, 0.2], 2.0) == [0.6, 0.3, 0.1];
    assert SumOfSquares([0.1]) == 0.01;
    assert SumOfSquares([0.3, 0.1]) == 0.1;
  }

  /** The second trajectory's visits: the repeated middle cell collapses, the return does not. */
  lemma SecondVisits()
    ensures Visits.Visits(Second().states) == [Second().states[0], Second().states[1], Second().states[3], Second().states[0]]
  {
    var s := Second().states;
    assert ChangesFrom(s, 4) == [s[4]];
    assert ChangesFrom(s, 3) == [s[3], s[4]];
    assert ChangesFrom(s, 2) == [s[3], s[4]];
    assert ChangesFrom(s, 1) == [s[1], s[3], s[4]];
  }

  /** The dictionary after the first three events of the second trajectory. */
  lemma SecondFirstThree()
    ensures Accumulate(Second().states, Second().times, 3)
            == [Entry(Second().states[0], 0.9), Entry(Second().states[1], 0.6)]
  {
    var t := Second();
    var a, b := t.states[0], t.states[1];
    var e1 := Accumulate(t.states, t.times, 1);
    assert e1 == Add([], a, 0.9) == [Entry(a, 0.9)];
    var e2 := Accumulate(t.states, t.times, 2);
    assert e2 == Add(e1, b, 0.1) == [Entry(a, 0.9), Entry(b, 0.1)];
    var e3 := Accumulate(t.states, t.times, 3);
    assert e3 == Add(e2, b, 0.5) == [Entry(a, 0.9), Entry(b, 0.6)];
  }

  /** The time per cell of the second trajectory, in order of first visit. */
  lemma SecondStateDurations()
    ensures Durations(StateDurations.StateDurations(Second().states, Second().times)) == [1.2, 0.6, 0.2]
  {
    var t := Second();
    var a, b, c := t.states[0], t.states[1], t.states[3];
    SecondFirstThree();
    var e3 := Accumulate(t.states, t.times, 3);
    var e4 := Accumulate(t.states, t.times, 4);
    assert e4 == Add(e3, c, 0.2) == [Entry(a, 0.9), Entry(b, 0.6), Entry(c, 0.2)];
    var e5 := Accumulate(t.states, t.times, 5);
    assert e5 == Add(e4, a, 0.3) == [Entry(a, 1.2), Entry(b, 0.6), Entry(c, 0.2)];
  }

  /** `get_measures(traj1)` for the first trajectory of the single-trajectory test. */
  lemma FirstMeasures(t: Trajectory<Label, Label>)
    requires t == First()
    ensures GetMeasures([t]) == Ok(FirstReport())
  {
    FirstProfile(t);
    SingleTrajectoryMeasures(t);
  }

  /** `get_measures(traj2)` for the second trajectory of the single-trajectory test. */
  lemma SecondMeasures(t: Trajectory<Label, Label>)
    requires t == Second()
    ensures GetMeasures([t]) == Ok(SecondReport())
  {
    SecondProfile(t);
    SingleTrajectoryMeasures(t);
  }

  lemma SecondStateCount()
    ensures |Elements(Second().states)| == 3
  {
    var t := Second();
    assert Elements(t.states) == Elements([t.states[0], t.states[1], t.states[3]]);
    DistinctCardinality([t.states[0], t.states[1], t.states[3]]);
  }

  /** The two trajectories share the cell ("ok", "ok") and nothing else. */
  lemma CombinedStateCount()
    ensures |Elements(First().states) + Elements(Second().states)| == 5
  {
    var a, b := First(), Second();
    var all := a.states + [b.states[0], b.states[3]];
    assert Elements(a.states) + Elements(b.states) == Elements(all);
    assert Distinct(all);
    DistinctCardinality(all);
  }

  /**
   * `test_correct_values_multi_trajectory`: each mean is the average of the
   * two trajectories' own values (so the event-duration mean is 11/30, not
   * the 3/8 that pooling all eight events would give) and the two
   * trajectories share one of their cells, so the total state range is 5.
   */
  function BothReport(): Measures {
    Measures(1.5, 4.0, 3.5, 3.0, 5, 11.0 / 30.0, 5.0 / 12.0, 0.5, 0.63)
  }

  lemma BothMeasures(a: Trajectory<Label, Label>, b: Trajectory<Label, Label>)
    requires a == First() && b == Second()
    ensures AllValid([a, b])
    ensures GetMeasures([a, b]) == Ok(BothReport())
  {
    BothPairReport(a, b);
    SharedSpaceMeasures(a, b);
  }

  lemma BothPairReport(a: Trajectory<Label, Label>, b: Trajectory<Label, Label>)
    requires a == First() && b == Second()
    ensures Valid(a) && |a.states| > 0 && GridSize(a.space) != 1
    ensures Valid(b) && |b.states| > 0 && GridSize(b.space) != 1
    ensures a.space == b.space
    ensures PairReport(a, b) == BothReport()
  {
    FirstProfile(a);
    SecondProfile(b);
    CombinedStateCount();
    BothAverage();
    var pa, pb, n := Profile(a), Profile(b), |Elements(a.states) + Elements(b.states)|;
    assert PairReport(a, b) == Averaged(pa, pb, n);
  }

  /** Each of the combined means is the average of the two single-trajectory means. */
  lemma BothAverage()
    ensures Averaged(FirstReport(), SecondReport(), 5) == BothReport()
  {
  }

  // ---------------------------------------------------------------------
  // Validation across trajectories

  /** `get_measures()` with no trajectory. */
  lemma EmptyInputRejected()
    ensures GetMeasures<Label, Label>([]) == Err(NoTrajectories)
  {
  }

  /** The nine events of the trajectory used by the validation tests. */
  function TourTimes(): seq<real> {
    [0.0, 1.0, 2.0, 3.0, 4.0, 5.0, 6.0, 7.0, 8.0, 9.0]
  }

  /** The tour with x labels the words and y labels 0, 1, 2 (`test_normal_use`). */
  function Tour(): Trajectory<Label, Label> {
    Trajectory(StateSpace([BadLabel, OkLabel, GoodLabel], [Num(0), Num(1), Num(2)]),
               [State(OkLabel, Num(1)), State(BadLabel, Num(0)), State(BadLabel, Num(1)),
                State(BadLabel, Num(2)), State(OkLabel, Num(2)), State(GoodLabel, Num(2)),
                State(GoodLabel, Num(1)), State(GoodLabel, Num(0)), State(OkLabel, Num(0))],
               TourTimes())
  }

  /** The same tour with the axes' label sets swapped. */
  function SwappedTour(): Trajectory<Label, Label> {
    Trajectory(StateSpace([Num(0), Num(1), Num(2)], [BadLabel, OkLabel, GoodLabel]),
               [State(Num(1), OkLabel), State(Num(0), BadLabel), State(Num(1), BadLabel),
                State(Num(2), BadLabel), State(Num(2), OkLabel), State(Num(2), GoodLabel),
                State(Num(1), GoodLabel), State(Num(0), GoodLabel), State(Num(0), OkLabel)],
               TourTimes())
  }

  /** The tour with the y range listed as 0, 2, 1. */
  function ReorderedTour(): Trajectory<Label, Label> {
    Trajectory(StateSpace([BadLabel, OkLabel, GoodLabel], [Num(0), Num(2), Num(1)]),
               Tour().states, TourTimes())
  }

  lemma ToursValid()
    ensures Valid(Tour()) && Valid(SwappedTour()) && Valid(ReorderedTour())
  {
  }

  /** `test_mismatched_states`: the x label sets differ. */
  lemma MismatchedSpacesRejected(a: Trajectory<Label, Label>, b: Trajectory<Label, Label>)
    requires a == Tour() && b == SwappedTour()
    ensures AllValid([a, b])
    ensures GetMeasures([a, b]) == Err(StateSpaceMismatch)
  {
    ToursValid();
    SwappedSetsFail(a, b);
  }

  lemma SwappedSetsFail(a: Trajectory<Label, Label>, b: Trajectory<Label, Label>)
    requires a == Tour() && b == SwappedTour()
    ensures Validate([a, b]) == Fail(StateSpaceMismatch)
  {
    var xs := XRanges([a, b]);
    assert Num(0) in UnionOf(xs) by {
      assert Num(0) in Elements(xs[1]);
      assert UnionOf(xs) == Elements(xs[0]) + UnionOf(xs[1..]);
      assert UnionOf(xs[1..]) == Elements(xs[1]) + UnionOf(xs[2..]);
    }
    assert Num(0) !in Elements(xs[0]);
  }

  /** `test_misordered_states`: same label sets, y labels in another order. */
  lemma MisorderedSpacesRejected(a: Trajectory<Label, Label>, b: Trajectory<Label, Label>)
    requires a == Tour() && b == ReorderedTour()
    ensures AllValid([a, b])
    ensures GetMeasures([a, b]) == Err(StateSpaceOrder)
  {
    ToursValid();
    ReorderedOrderFails(a, b);
  }

  lemma ReorderedOrderFails(a: Trajectory<Label, Label>, b: Trajectory<Label, Label>)
    requires a == Tour() && b == ReorderedTour()
    ensures Validate([a, b]) == Fail(StateSpaceOrder)
  {
    ReorderedSetsMatch();
    assert !OrderMatches(YRanges([a, b])) by {
      var ys := YRanges([a, b]);
      assert ys[0][1] != ys[1][1];
    }
  }

  lemma ReorderedSetsMatch()
    ensures SetsMatch(XRanges([Tour(), ReorderedTour()])) && SetsMatch(YRanges([Tour(), ReorderedTour()]))
  {
    var xs, ys := XRanges([Tour(), ReorderedTour()]), YRanges([Tour(), ReorderedTour()]);
    SetsMatchIffSameAsFirst(xs);
    SetsMatchIffSameAsFirst(ys);
    assert Elements(ys[1]) == Elements(ys[0]);
  }
}

=== FILE: measure.dfy ===
/**
 * The measures of statespacegrid/measure.py. Every measure but the total
 * state range is an unweighted mean, across trajectories, of one
 * per-trajectory quantity; the eight `_get_mean_*` functions differ only in
 * that quantity, so the model names the quantity (`Quantity`) and defines the
 * mean across trajectories once (`MeanAcross`).
 */
module Measure {
  import opened Errors
  import opened SeqMath
  import opened Trajectories
  import opened Visits
  import opened StateDurations
  import opened Dispersion
  import opened Validation

  /** The report of `get_measures`. */
  datatype Measures = Measures(
    meanTrajectoryDuration: real,
    meanNumberOfEvents: real,
    meanNumberOfVisits: real,
    meanStateRange: real,
    totalStateRange: nat,
    meanEventDuration: real,
    meanVisitDuration: real,
    meanStateDuration: real,
    meanDispersion: real)

  /** `S`: the number of cells of the grid, `len(x_range) * len(y_range)`. */
  function GridSize<X, Y>(space: StateSpace<X, Y>): nat {
    |space.xRange| * |space.yRange|
  }

  // ---------------------------------------------------------------------
  // Per-trajectory quantities

  /** The mean of `times[i + 1] - times[i]` over the events. */
  function AverageEventDuration<X(==), Y(==)>(t: Trajectory<X, Y>): (m: real)
    requires Valid(t) && |t.states| > 0
    ensures m == Duration(t) / |t.states| as real
  {
    MeanOfDiffs(t.times, |t.states| as real);
    Mean(Diffs(t.times))
  }

  /** The mean of the gaps between consecutive visit times. */
  function AverageVisitDuration<X(==), Y(==)>(t: Trajectory<X, Y>): (m: real)
    requires Valid(t) && |t.states| > 0
    ensures m == Duration(t) / |Visits.Visits(t.states)| as real
  {
    var vt := VisitTimes(t.states, t.times);
    MeanOfDiffs(vt, |Visits.Visits(t.states)| as real);
    Mean(Diffs(vt))
  }

  /** The mean of the per-state summed durations. */
  function AverageStateDuration<X(==), Y(==)>(t: Trajectory<X, Y>): (m: real)
    requires Valid(t) && |t.states| > 0
    ensures |Elements(t.states)| > 0 && m == Duration(t) / |Elements(t.states)| as real
  {
    assert t.states[0] in Elements(t.states);
    Mean(Durations(StateDurations.StateDurations(t.states, t.times)))
  }

  /**
   * `__get_dispersion`: `1 - (S * sum(p^2) - 1) / (S - 1)` with `p` the share
   * of the trajectory's duration spent in each visited state. A trajectory
   * without events sums nothing, so no share is divided out.
   */
  function TrajectoryDispersion<X(==), Y(==)>(t: Trajectory<X, Y>): (r: Result<real>)
    requires Valid(t)
    ensures r.Err? <==> GridSize(t.space) == 1
    ensures r.Err? ==> r.error == DegenerateStateSpace
  {
    var cells := GridSize(t.space);
    if cells == 1 then Err(DegenerateStateSpace)
    else
      var ds := Durations(StateDurations.StateDurations(t.states, t.times));
      Ok(Formula(cells, SumOfSquaredShares(ds, Duration(t))))
  }

  /**
   * On a grid of at least two cells, a trajectory with events has a
   * dispersion between 0 and 1.
   */
  lemma DispersionBounds<X, Y>(t: Trajectory<X, Y>)
    requires Valid(t) && |t.states| > 0 && GridSize(t.space) >= 2
    ensures TrajectoryDispersion(t).Ok?
    ensures 0.0 <= TrajectoryDispersion(t).value <= 1.0
  {
    var es := StateDurations.StateDurations(t.states, t.times);
    var ds := Durations(es);
    assert NonNegative(ds) by {
      forall i | 0 <= i < |ds| ensures ds[i] >= 0.0 {
        assert ds[i] == es[i].duration;
      }
    }
    assert t.states[0] in Elements(t.states);
    ShareBounds(ds, Duration(t));
    VisitedCellsBounded(t);
    FormulaBounds(GridSize(t.space), |ds|, SumOfSquaredShares(ds, Duration(t)));
  }

  /** All time spent in one state gives dispersion 0. */
  lemma DispersionConcentrated<X, Y>(t: Trajectory<X, Y>)
    requires Valid(t) && |Elements(t.states)| == 1 && GridSize(t.space) >= 2
    ensures TrajectoryDispersion(t) == Ok(0.0)
  {
    var es := StateDurations.StateDurations(t.states, t.times);
    var ds := Durations(es);
    var total := Duration(t);
    assert |ds| == 1;
    assert Sum(ds) == ds[0] == total;
    DivideBySelf(total);
    assert Shares(ds, total) == [1.0];
    assert SumOfSquares([1.0]) == 1.0;
    FormulaExtremes(GridSize(t.space), 1.0);
  }

  /** Time spread evenly over every cell of the grid gives dispersion 1. */
  lemma DispersionEven<X, Y>(t: Trajectory<X, Y>, c: real)
    requires Valid(t) && GridSize(t.space) >= 2
    requires |Elements(t.states)| == GridSize(t.space)
    requires forall s :: s in t.states ==> Occupancy(t.states, t.times, s, |t.states|) == c
    ensures TrajectoryDispersion(t) == Ok(1.0)
  {
    var ds := Durations(StateDurations.StateDurations(t.states, t.times));
    var cells := GridSize(t.space);
    assert |ds| == cells;
    EqualEntries(t, c);
    EvenFormula(cells, ds, c, Duration(t));
  }

  /** When every visited state is occupied for `c`, every entry holds `c`, and `c` is positive. */
  lemma EqualEntries<X, Y>(t: Trajectory<X, Y>, c: real)
    requires Valid(t) && |t.states| > 0
    requires forall s :: s in t.states ==> Occupancy(t.states, t.times, s, |t.states|) == c
    ensures c > 0.0
    ensures forall i :: 0 <= i < |Durations(StateDurations.StateDurations(t.states, t.times))| ==>
              Durations(StateDurations.StateDurations(t.states, t.times))[i] == c
  {
    var es := StateDurations.StateDurations(t.states, t.times);
    forall i | 0 <= i < |es| ensures es[i].duration == c {
      assert es[i].state in Elements(Keys(es)) by {
        assert Keys(es)[i] == es[i].state;
      }
    }
    assert t.states[0] in Elements(t.states);
    assert es[0].duration > 0.0;
  }

  /**
   * A trajectory without events adds no squared shares, so its dispersion is
   * `S / (S - 1)`, above 1.
   */
  lemma DispersionWithoutEvents<X, Y>(t: Trajectory<X, Y>)
    requires Valid(t) && |t.states| == 0 && GridSize(t.space) >= 2
    ensures TrajectoryDispersion(t).Ok?
    ensures TrajectoryDispersion(t).value == GridSize(t.space) as real / (GridSize(t.space) as real - 1.0)
    ensures TrajectoryDispersion(t).value > 1.0
  {
    var n := GridSize(t.space) as real;
    assert Durations(StateDurations.StateDurations(t.states, t.times)) == [];
    assert 1.0 - (n * 0.0 - 1.0) / (n - 1.0) == n / (n - 1.0);
  }

  /**
   * Dispersion depends only on how long each state is occupied, not on the
   * order of the events: two trajectories on grids of the same size that
   * spend the same time in every state have the same dispersion.
   */
  lemma DispersionOrderIndependent<X, Y>(t1: Trajectory<X, Y>, t2: Trajectory<X, Y>)
    requires Valid(t1) && Valid(t2)
    requires GridSize(t1.space) == GridSize(t2.space)
    requires forall s :: Occupancy(t1.states, t1.times, s, |t1.states|) == Occupancy(t2.states, t2.times, s, |t2.states|)
    ensures TrajectoryDispersion(t1) == TrajectoryDispersion(t2)
  {
    var es1 := StateDurations.StateDurations(t1.states, t1.times);
    var es2 := StateDurations.StateDurations(t2.states, t2.times);
    assert Elements(t1.states) == Elements(t2.states) by {
      forall s ensures s in t1.states <==> s in t2.states {
        OccupiedIffVisited(t1.states, t1.times, s);
        OccupiedIffVisited(t2.states, t2.times, s);
      }
    }
    DistinctSameMultiset(Keys(es1), Keys(es2));
    EntriesPermutation(es1, es2);
    var ds1, ds2 := Durations(es1), Durations(es2);
    assert Duration(t1) == Duration(t2) by {
      SumPermutation(ds1, ds2);
    }
    if GridSize(t1.space) != 1 {
      SquaredSharesPermutation(ds1, ds2, Duration(t1));
    }
  }

  /** The per-trajectory quantity each mean is taken of. */
  datatype Quantity =
    | TrajectoryDuration  // times[-1] - times[0]
    | NumberOfEvents      // len(states)
    | NumberOfVisits      // len(get_visits())
    | StateRange          // len(set(states))
    | EventDuration       // mean event duration within the trajectory
    | VisitDuration       // mean visit duration within the trajectory
    | StateDuration       // mean summed duration per visited state
    | DispersionValue     // __get_dispersion(traj)

  /** The field of the report that holds the mean of `q`. */
  function Field(m: Measures, q: Quantity): real {
    match q
    case TrajectoryDuration => m.meanTrajectoryDuration
    case NumberOfEvents => m.meanNumberOfEvents
    case NumberOfVisits => m.meanNumberOfVisits
    case StateRange => m.meanStateRange
    case EventDuration => m.meanEventDuration
    case VisitDuration => m.meanVisitDuration
    case StateDuration => m.meanStateDuration
    case DispersionValue => m.meanDispersion
  }

  /** Two reports with the same eight means and the same total state range are the same report. */
  lemma SameFieldsSameReport(m: Measures, e: Measures)
    requires forall q :: Field(m, q) == Field(e, q)
    requires m.totalStateRange == e.totalStateRange
    ensures m == e
  {
    assert Field(m, TrajectoryDuration) == Field(e, TrajectoryDuration);
    assert Field(m, NumberOfEvents) == Field(e, NumberOfEvents);
    assert Field(m, NumberOfVisits) == Field(e, NumberOfVisits);
    assert Field(m, StateRange) == Field(e, StateRange);
    assert Field(m, EventDuration) == Field(e, EventDuration);
    assert Field(m, VisitDuration) == Field(e, VisitDuration);
    assert Field(m, StateDuration) == Field(e, StateDuration);
    assert Field(m, DispersionValue) == Field(e, DispersionValue);
  }

  /** The quantities whose Python computation fails on a trajectory without events. */
  predicate NeedsEvents(q: Quantity) {
    q.NumberOfVisits? || q.EventDuration? || q.VisitDuration? || q.StateDuration?
  }

  /** The error Python raises for a quantity, when it raises one. */
  function QuantityError(q: Quantity): Error {
    if q.DispersionValue? then DegenerateStateSpace else NoEvents
  }

  /** Whether computing `q` for `t` raises in Python. */
  predicate Raises<X, Y>(q: Quantity, t: Trajectory<X, Y>) {
    (NeedsEvents(q) && |t.states| == 0) || (q.DispersionValue? && GridSize(t.space) == 1)
  }

  /**
   * One trajectory's value of a quantity. Without events `get_visits` fails
   * on `states[0]` and the inner means have nothing to average; dispersion
   * divides by zero on a one-cell grid.
   */
  function Quantify<X(==), Y(==)>(q: Quantity, t: Trajectory<X, Y>): (r: Result<real>)
    requires Valid(t)
    ensures r.Err? <==> Raises(q, t)
    ensures r.Err? ==> r.error == QuantityError(q)
  {
    match q
    case TrajectoryDuration => Ok(Duration(t))
    case NumberOfEvents => Ok(|t.states| as real)
    case NumberOfVisits => if |t.states| == 0 then Err(NoEvents) else Ok(|Visits.Visits(t.states)| as real)
    case StateRange => Ok(|Elements(t.states)| as real)
    case EventDuration => if |t.states| == 0 then Err(NoEvents) else Ok(AverageEventDuration(t))
    case VisitDuration => if |t.states| == 0 then Err(NoEvents) else Ok(AverageVisitDuration(t))
    case StateDuration => if |t.states| == 0 then Err(NoEvents) else Ok(AverageStateDuration(t))
    case DispersionValue => TrajectoryDispersion(t)
  }

  /**
   * Each quantity in closed form: the durations are spans of the fenceposts
   * divided by how many events, visits or distinct states share them.
   */
  lemma QuantifyClosedForm<X, Y>(q: Quantity, t: Trajectory<X, Y>)
    requires Valid(t) && !Raises(q, t)
    ensures q.TrajectoryDuration? ==> Quantify(q, t).value == t.times[|t.times| - 1] - t.times[0]
    ensures q.NumberOfEvents? ==> Quantify(q, t).value == |t.states| as real
    ensures q.NumberOfVisits? ==> Quantify(q, t).value == |Visits.Visits(t.states)| as real
    ensures q.StateRange? ==> Quantify(q, t).value == |Elements(t.states)| as real
    ensures q.EventDuration? ==> Quantify(q, t).value == Duration(t) / |t.states| as real
    ensures q.VisitDuration? ==> Quantify(q, t).value == Duration(t) / |Visits.Visits(t.states)| as real
    ensures q.StateDuration? ==>
              |Elements(t.states)| > 0 && Quantify(q, t).value == Duration(t) / |Elements(t.states)| as real
    ensures q.DispersionValue? ==> Quantify(q, t) == TrajectoryDispersion(t)
  {
    if q.StateDuration? {
      assert t.states[0] in Elements(t.states);
    }
  }

  // ---------------------------------------------------------------------
  // Means across trajectories

  /**
   * `map(quantity, trajs)` consumed in order: every trajectory's value, or
   * the error of the first trajectory that has none.
   */
  function Collect<X(==), Y(==)>(q: Quantity, trajs: seq<Trajectory<X, Y>>): (r: Result<seq<real>>)
    requires AllValid(trajs)
    ensures r.Ok? <==> forall i :: 0 <= i < |trajs| ==> !Raises(q, trajs[i])
    ensures r.Err? ==> r.error == QuantityError(q)
    ensures r.Ok? ==> |r.value| == |trajs|
    ensures r.Ok? ==> forall i :: 0 <= i < |trajs| ==> r.value[i] == Quantify(q, trajs[i]).value
  {
    if |trajs| == 0 then Ok([])
    else
      var v :- Quantify(q, trajs[0]);
      var rest := Collect(q, trajs[1..]);
      if rest.Err? then
        ghost var i :| 0 <= i < |trajs[1..]| && Raises(q, trajs[1..][i]);
        assert Raises(q, trajs[i + 1]);
        Err(rest.error)
      else
        assert forall i :: 0 < i < |trajs| ==> trajs[i] == trajs[1..][i - 1];
        Ok([v] + rest.value)
  }

  /**
   * `statistics.mean(map(quantity, trajs))`: the unweighted mean of the
   * trajectories' values, never a mean pooled over their events; it fails
   * exactly when some trajectory has no value.
   */
  function MeanAcross<X(==), Y(==)>(q: Quantity, trajs: seq<Trajectory<X, Y>>): (r: Result<real>)
    requires |trajs| > 0 && AllValid(trajs)
    ensures r.Err? <==> exists i :: 0 <= i < |trajs| && Raises(q, trajs[i])
    ensures r.Err? ==> r.error == QuantityError(q)
  {
    var vs :- Collect(q, trajs);
    Ok(Mean(vs))
  }

  /** A mean across trajectories lies between the smallest and the largest of their values. */
  lemma MeanAcrossBounds<X, Y>(q: Quantity, trajs: seq<Trajectory<X, Y>>)
    requires |trajs| > 0 && AllValid(trajs)
    requires MeanAcross(q, trajs).Ok?
    ensures exists i :: 0 <= i < |trajs| && Quantify(q, trajs[i]).value <= MeanAcross(q, trajs).value
    ensures exists j :: 0 <= j < |trajs| && MeanAcross(q, trajs).value <= Quantify(q, trajs[j]).value
    ensures |trajs| == 1 ==> MeanAcross(q, trajs).value == Quantify(q, trajs[0]).value
  {
    var vs := Collect(q, trajs).value;
    MeanOfCollected(q, trajs, vs);
    var m := Mean(vs);
    MeanWithinValues(vs);
    var i :| 0 <= i < |vs| && vs[i] <= m;
    var j :| 0 <= j < |vs| && m <= vs[j];
    assert Quantify(q, trajs[i]).value <= m;
    assert m <= Quantify(q, trajs[j]).value;
    if |trajs| == 1 {
      assert i == 0 && j == 0;
    }
  }

  /** The per-trajectory values of `q`, added up. */
  function QuantitySum<X(==), Y(==)>(q: Quantity, trajs: seq<Trajectory<X, Y>>): real
    requires AllValid(trajs)
    requires forall i :: 0 <= i < |trajs| ==> !Raises(q, trajs[i])
  {
    if |trajs| == 0 then 0.0
    else Quantify(q, trajs[0]).value + QuantitySum(q, trajs[1..])
  }

  /**
   * The mean across trajectories weighs every trajectory equally: `n`
   * trajectories' mean times `n` is the sum of their own values, whatever
   * their numbers of events.
   */
  lemma MeanIsUnweighted<X, Y>(q: Quantity, trajs: seq<Trajectory<X, Y>>)
    requires |trajs| > 0 && AllValid(trajs)
    requires forall i :: 0 <= i < |trajs| ==> !Raises(q, trajs[i])
    ensures MeanAcross(q, trajs) == Ok(QuantitySum(q, trajs) / |trajs| as real)
  {
    CollectSum(q, trajs);
    var vs := Collect(q, trajs).value;
    assert MeanAcross(q, trajs) == Ok(Mean(vs));
    MeanOfSum(vs, |trajs| as real);
  }

  lemma {:induction false} CollectSum<X, Y>(q: Quantity, trajs: seq<Trajectory<X, Y>>)
    requires AllValid(trajs)
    requires forall i :: 0 <= i < |trajs| ==> !Raises(q, trajs[i])
    ensures Collect(q, trajs).Ok?
    ensures Sum(Collect(q, trajs).value) == QuantitySum(q, trajs)
  {
    if |trajs| > 0 {
      CollectSum(q, trajs[1..]);
      var vs := Collect(q, trajs).value;
      assert vs[1..] == Collect(q, trajs[1..]).value;
    }
  }

  /** The distinct states over all trajectories. */
  function AllStates<X(==), Y(==)>(trajs: seq<Trajectory<X, Y>>): set<State<X, Y>> {
    if |trajs| == 0 then {} else Elements(trajs[0].states) + AllStates(trajs[1..])
  }

  /** The sum of the trajectories' own distinct-state counts. */
  function SumOfStateRanges<X(==), Y(==)>(trajs: seq<Trajectory<X, Y>>): nat {
    if |trajs| == 0 then 0 else |Elements(trajs[0].states)| + SumOfStateRanges(trajs[1..])
  }

  /**
   * `_get_total_state_range`: the number of distinct states over all
   * trajectories together. It is at least any one trajectory's count and at
   * most the sum of the counts.
   */
  function TotalStateRange<X(==), Y(==)>(trajs: seq<Trajectory<X, Y>>): (n: nat)
    ensures forall i :: 0 <= i < |trajs| ==> |Elements(trajs[i].states)| <= n
    ensures n <= SumOfStateRanges(trajs)
  {
    TotalStateRangeBounds(trajs);
    |AllStates(trajs)|
  }

  lemma {:induction false} TotalStateRangeBounds<X, Y>(trajs: seq<Trajectory<X, Y>>)
    ensures forall i :: 0 <= i < |trajs| ==> Elements(trajs[i].states) <= AllStates(trajs)
    ensures forall i :: 0 <= i < |trajs| ==> |Elements(trajs[i].states)| <= |AllStates(trajs)|
    ensures |AllStates(trajs)| <= SumOfStateRanges(trajs)
  {
    if |trajs| > 0 {
      TotalStateRangeBounds(trajs[1..]);
      forall i | 0 <= i < |trajs| ensures Elements(trajs[i].states) <= AllStates(trajs) {
        if i > 0 {
          assert trajs[i] == trajs[1..][i - 1];
        }
      }
      forall i | 0 <= i < |trajs| ensures |Elements(trajs[i].states)| <= |AllStates(trajs)| {
        SubsetCardinality(Elements(trajs[i].states), AllStates(trajs));
      }
      UnionCardinality(Elements(trajs[0].states), AllStates(trajs[1..]));
    }
  }

  // ---------------------------------------------------------------------
  // The public entry points: validate, then compute

  /** `get_mean_*(*trajs)`: validation first, then the mean across trajectories. */
  function GetMean<X(==), Y(==)>(q: Quantity, trajs: seq<Trajectory<X, Y>>): (r: Result<real>)
    requires AllValid(trajs)
    ensures Validate(trajs).Fail? ==> r == Err(Validate(trajs).error)
    ensures Validate(trajs).Pass? ==> |trajs| > 0 && r == MeanAcross(q, trajs)
  {
    match Validate(trajs)
    case Fail(e) => Err(e)
    case Pass => MeanAcross(q, trajs)
  }

  /** `get_total_state_range(*trajs)`. */
  function GetTotalStateRange<X(==), Y(==)>(trajs: seq<Trajectory<X, Y>>): (r: Result<nat>)
    ensures Validate(trajs).Fail? ==> r == Err(Validate(trajs).error)
    ensures Validate(trajs).Pass? ==> r == Ok(TotalStateRange(trajs))
  {
    match Validate(trajs)
    case Fail(e) => Err(e)
    case Pass => Ok(TotalStateRange(trajs))
  }

  /**
   * `get_measures(*trajs)`: validates once, then fills the nine fields in
   * order; the first failure (visits before dispersion) is reported, and each
   * field is what the matching public getter returns.
   */
  function GetMeasures<X(==), Y(==)>(trajs: seq<Trajectory<X, Y>>): (r: Result<Measures>)
    requires AllValid(trajs)
    ensures Validate(trajs).Fail? ==> r == Err(Validate(trajs).error)
    ensures Validate(trajs).Pass? ==>
              (r.Ok? <==> forall i :: 0 <= i < |trajs| ==> |trajs[i].states| > 0 && GridSize(trajs[i].space) != 1)
    ensures Validate(trajs).Pass? && (exists i :: 0 <= i < |trajs| && |trajs[i].states| == 0) ==> r == Err(NoEvents)
    ensures (&& Validate(trajs).Pass?
             && (forall i :: 0 <= i < |trajs| ==> |trajs[i].states| > 0)
             && (exists i :: 0 <= i < |trajs| && GridSize(trajs[i].space) == 1))
            ==> r == Err(DegenerateStateSpace)
    ensures r.Ok? ==> forall q :: GetMean(q, trajs) == Ok(Field(r.value, q))
    ensures r.Ok? ==> GetTotalStateRange(trajs) == Ok(r.value.totalStateRange)
  {
    match Validate(trajs)
    case Fail(e) => Err(e)
    case Pass =>
      // Only two steps can fail, visits (no events) before dispersion (a
      // one-cell grid); the other six means cannot fail once visits succeed.
      var visits :- MeanAcross(NumberOfVisits, trajs);
      var dispersion :- MeanAcross(DispersionValue, trajs);
      var m := Measures(MeanAcross(TrajectoryDuration, trajs).value,
                        MeanAcross(NumberOfEvents, trajs).value,
                        visits,
                        MeanAcross(StateRange, trajs).value,
                        TotalStateRange(trajs),
                        MeanAcross(EventDuration, trajs).value,
                        MeanAcross(VisitDuration, trajs).value,
                        MeanAcross(StateDuration, trajs).value,
                        dispersion);
      FieldsAreMeans(trajs, m);
      Ok(m)
  }

  /** A report whose eight mean fields are the eight means holds, in `Field(m, q)`, the mean of `q`. */
  lemma FieldsAreMeans<X, Y>(trajs: seq<Trajectory<X, Y>>, m: Measures)
    requires |trajs| > 0 && AllValid(trajs)
    requires MeanAcross(TrajectoryDuration, trajs) == Ok(m.meanTrajectoryDuration)
    requires MeanAcross(NumberOfEvents, trajs) == Ok(m.meanNumberOfEvents)
    requires MeanAcross(NumberOfVisits, trajs) == Ok(m.meanNumberOfVisits)
    requires MeanAcross(StateRange, trajs) == Ok(m.meanStateRange)
    requires MeanAcross(EventDuration, trajs) == Ok(m.meanEventDuration)
    requires MeanAcross(VisitDuration, trajs) == Ok(m.meanVisitDuration)
    requires MeanAcross(StateDuration, trajs) == Ok(m.meanStateDuration)
    requires MeanAcross(DispersionValue, trajs) == Ok(m.meanDispersion)
    ensures forall q :: MeanAcross(q, trajs) == Ok(Field(m, q))
  {
    forall q ensures MeanAcross(q, trajs) == Ok(Field(m, q)) {
      match q
      case TrajectoryDuration =>
      case NumberOfEvents =>
      case NumberOfVisits =>
      case StateRange =>
      case EventDuration =>
      case VisitDuration =>
      case StateDuration =>
      case DispersionValue =>
    }
  }

  /** When validation passes and neither the visit count nor the dispersion fails, every measure succeeds. */
  lemma MeasuresSucceed<X, Y>(trajs: seq<Trajectory<X, Y>>)
    requires AllValid(trajs) && Validate(trajs) == Pass
    requires MeanAcross(NumberOfVisits, trajs).Ok? && MeanAcross(DispersionValue, trajs).Ok?
    ensures GetMeasures(trajs).Ok?
  {
    forall i | 0 <= i < |trajs| ensures |trajs[i].states| > 0 && GridSize(trajs[i].space) != 1 {
      assert !Raises(NumberOfVisits, trajs[i]) && !Raises(DispersionValue, trajs[i]);
    }
  }

  /** Conversely, when every mean is the matching field of `e`, validation passes and the totals agree, the report is `e`. */
  lemma ReportFromMeans<X, Y>(trajs: seq<Trajectory<X, Y>>, e: Measures)
    requires AllValid(trajs) && Validate(trajs) == Pass
    requires forall q :: MeanAcross(q, trajs) == Ok(Field(e, q))
    requires TotalStateRange(trajs) == e.totalStateRange
    ensures GetMeasures(trajs) == Ok(e)
  {
    assert MeanAcross(NumberOfVisits, trajs).Ok? && MeanAcross(DispersionValue, trajs).Ok?;
    MeasuresSucceed(trajs);
    var m := GetMeasures(trajs).value;
    forall q ensures Field(m, q) == Field(e, q) {
      assert GetMean(q, trajs) == Ok(Field(m, q));
    }
    SameFieldsSameReport(m, e);
  }

  /**
   * One trajectory's values in closed form, laid out as a report: its
   * duration, its numbers of events, visits and distinct states, that
   * duration divided by each of the three counts, and its dispersion.
   */
  function Profile<X(==), Y(==)>(t: Trajectory<X, Y>): Measures
    requires Valid(t) && |t.states| > 0 && GridSize(t.space) != 1
  {
    var d := Duration(t);
    var n, v, k := |t.states|, |Visits.Visits(t.states)|, |Elements(t.states)|;
    assert t.states[0] in Elements(t.states);
    Measures(d, n as real, v as real, k as real, k,
             d / n as real, d / v as real, d / k as real, TrajectoryDispersion(t).value)
  }

  /** Every quantity of a trajectory with events on a grid of more than one cell is the matching entry of its profile. */
  lemma ProfileValues<X, Y>(t: Trajectory<X, Y>)
    requires Valid(t) && |t.states| > 0 && GridSize(t.space) != 1
    ensures forall q :: Quantify(q, t) == Ok(Field(Profile(t), q))
  {
    forall q ensures Quantify(q, t) == Ok(Field(Profile(t), q)) {
      ProfileValue(q, t, Profile(t));
    }
  }

  lemma ProfileValue<X, Y>(q: Quantity, t: Trajectory<X, Y>, p: Measures)
    requires Valid(t) && |t.states| > 0 && GridSize(t.space) != 1
    requires p == Profile(t)
    ensures Quantify(q, t) == Ok(Field(p, q))
  {
    QuantifyClosedForm(q, t);
    match q
    case TrajectoryDuration => assert p.meanTrajectoryDuration == Duration(t);
    case NumberOfEvents => assert p.meanNumberOfEvents == |t.states| as real;
    case NumberOfVisits => assert p.meanNumberOfVisits == |Visits.Visits(t.states)| as real;
    case StateRange => assert p.meanStateRange == |Elements(t.states)| as real;
    case EventDuration => assert p.meanEventDuration == Duration(t) / |t.states| as real;
    case VisitDuration => assert p.meanVisitDuration == Duration(t) / |Visits.Visits(t.states)| as real;
    case StateDuration => assert p.meanStateDuration == Duration(t) / |Elements(t.states)| as real;
    case DispersionValue => assert p.meanDispersion == TrajectoryDispersion(t).value;
  }

  /**
   * For one trajectory with events on a grid of more than one cell, the
   * report is that trajectory's profile: its own duration, counts, mean
   * durations, dispersion, and its own number of distinct states.
   */
  lemma SingleTrajectoryMeasures<X, Y>(t: Trajectory<X, Y>)
    requires Valid(t) && |t.states| > 0 && GridSize(t.space) != 1
    ensures GetMeasures([t]) == Ok(Profile(t))
  {
    SinglePasses(t);
    SingleStates(t);
    ProfileValues(t);
    SingleMeans([t], Profile(t));
    ReportFromMeans([t], Profile(t));
  }

  /** Every mean across one trajectory is that trajectory's own value. */
  lemma SingleMeans<X, Y>(trajs: seq<Trajectory<X, Y>>, m: Measures)
    requires |trajs| == 1 && AllValid(trajs)
    requires forall q :: Quantify(q, trajs[0]) == Ok(Field(m, q))
    ensures forall q :: MeanAcross(q, trajs) == Ok(Field(m, q))
  {
    forall q ensures MeanAcross(q, trajs) == Ok(Field(m, q)) {
      SingleMean(q, trajs, Field(m, q));
    }
  }

  /** The mean of `q` across one trajectory is that trajectory's own value. */
  lemma SingleMean<X, Y>(q: Quantity, trajs: seq<Trajectory<X, Y>>, x: real)
    requires |trajs| == 1 && AllValid(trajs)
    requires Quantify(q, trajs[0]) == Ok(x)
    ensures MeanAcross(q, trajs) == Ok(x)
  {
    SingleCollect(q, trajs, x);
    MeanOfCollected(q, trajs, [x]);
    MeanOfOne(x);
  }

  lemma SingleCollect<X, Y>(q: Quantity, trajs: seq<Trajectory<X, Y>>, x: real)
    requires |trajs| == 1 && AllValid(trajs)
    requires Quantify(q, trajs[0]) == Ok(x)
    ensures Collect(q, trajs) == Ok([x])
  {
    SingleRaisesNothing(q, trajs);
    var vs := Collect(q, trajs).value;
    assert vs[0] == x;
    assert vs == [x];
  }

  lemma SingleRaisesNothing<X, Y>(q: Quantity, trajs: seq<Trajectory<X, Y>>)
    requires |trajs| == 1 && !Raises(q, trajs[0])
    ensures forall i :: 0 <= i < |trajs| ==> !Raises(q, trajs[i])
  {
  }

  /** Two reports averaged field by field, with the given total state range. */
  function Averaged(m1: Measures, m2: Measures, total: nat): (m: Measures)
    ensures forall q :: Field(m, q) == (Field(m1, q) + Field(m2, q)) / 2.0
    ensures m.totalStateRange == total
  {
    Measures((m1.meanTrajectoryDuration + m2.meanTrajectoryDuration) / 2.0,
             (m1.meanNumberOfEvents + m2.meanNumberOfEvents) / 2.0,
             (m1.meanNumberOfVisits + m2.meanNumberOfVisits) / 2.0,
             (m1.meanStateRange + m2.meanStateRange) / 2.0,
             total,
             (m1.meanEventDuration + m2.meanEventDuration) / 2.0,
             (m1.meanVisitDuration + m2.meanVisitDuration) / 2.0,
             (m1.meanStateDuration + m2.meanStateDuration) / 2.0,
             (m1.meanDispersion + m2.meanDispersion) / 2.0)
  }

  /** The report two trajectories should get: their profiles averaged, with their states counted together. */
  function PairReport<X(==), Y(==)>(a: Trajectory<X, Y>, b: Trajectory<X, Y>): Measures
    requires Valid(a) && |a.states| > 0 && GridSize(a.space) != 1
    requires Valid(b) && |b.states| > 0 && GridSize(b.space) != 1
  {
    Averaged(Profile(a), Profile(b), |Elements(a.states) + Elements(b.states)|)
  }

  /**
   * For two trajectories that pass validation, each mean is the plain
   * average of the two profiles' entries and the total state range counts
   * the states of both together.
   */
  lemma PairMeasures<X, Y>(a: Trajectory<X, Y>, b: Trajectory<X, Y>)
    requires Valid(a) && |a.states| > 0 && GridSize(a.space) != 1
    requires Valid(b) && |b.states| > 0 && GridSize(b.space) != 1
    requires Validate([a, b]) == Pass
    ensures GetMeasures([a, b]) == Ok(PairReport(a, b))
  {
    var n := |Elements(a.states) + Elements(b.states)|;
    ProfileValues(a);
    ProfileValues(b);
    PairMeans([a, b], Profile(a), Profile(b), n);
    assert PairReport(a, b) == Averaged(Profile(a), Profile(b), n);
    PairStates(a, b);
    ReportFromMeans([a, b], PairReport(a, b));
  }

  /** Two trajectories on one state space always pass validation, so they get their pair report. */
  lemma SharedSpaceMeasures<X, Y>(a: Trajectory<X, Y>, b: Trajectory<X, Y>)
    requires Valid(a) && |a.states| > 0 && GridSize(a.space) != 1
    requires Valid(b) && |b.states| > 0 && GridSize(b.space) != 1
    requires a.space == b.space
    ensures AllValid([a, b])
    ensures GetMeasures([a, b]) == Ok(PairReport(a, b))
  {
    SameSpacePasses([a, b]);
    PairMeasures(a, b);
  }

  /** When `m1` and `m2` hold the two trajectories' values, every mean across them is the matching field of their average. */
  lemma PairMeans<X, Y>(trajs: seq<Trajectory<X, Y>>, m1: Measures, m2: Measures, n: nat)
    requires |trajs| == 2 && AllValid(trajs)
    requires forall q :: Quantify(q, trajs[0]) == Ok(Field(m1, q))
    requires forall q :: Quantify(q, trajs[1]) == Ok(Field(m2, q))
    ensures forall q :: MeanAcross(q, trajs) == Ok(Field(Averaged(m1, m2, n), q))
  {
    forall q ensures MeanAcross(q, trajs) == Ok(Field(Averaged(m1, m2, n), q)) {
      PairMean(q, trajs, Field(m1, q), Field(m2, q), Field(Averaged(m1, m2, n), q));
    }
  }

  /** With values `x` and `y` for two trajectories, the mean of `q` across them is their midpoint `z`. */
  lemma PairMean<X, Y>(q: Quantity, trajs: seq<Trajectory<X, Y>>, x: real, y: real, z: real)
    requires |trajs| == 2 && AllValid(trajs)
    requires Quantify(q, trajs[0]) == Ok(x) && Quantify(q, trajs[1]) == Ok(y)
    requires z == (x + y) / 2.0
    ensures MeanAcross(q, trajs) == Ok(z)
  {
    PairCollect(q, trajs, x, y);
    MeanOfCollected(q, trajs, [x, y]);
    MeanOfPair(x, y);
  }

  lemma PairCollect<X, Y>(q: Quantity, trajs: seq<Trajectory<X, Y>>, x: real, y: real)
    requires |trajs| == 2 && AllValid(trajs)
    requires Quantify(q, trajs[0]) == Ok(x) && Quantify(q, trajs[1]) == Ok(y)
    ensures Collect(q, trajs) == Ok([x, y])
  {
    PairRaisesNothing(q, trajs);
    var vs := Collect(q, trajs).value;
    assert vs[0] == x && vs[1] == y;
    assert vs == [x, y];
  }

  /** Once the values are collected, the mean across the trajectories is their mean. */
  lemma MeanOfCollected<X, Y>(q: Quantity, trajs: seq<Trajectory<X, Y>>, vs: seq<real>)
    requires AllValid(trajs) && |vs| > 0
    requires Collect(q, trajs) == Ok(vs)
    ensures MeanAcross(q, trajs) == Ok(Mean(vs))
  {
  }

  lemma PairRaisesNothing<X, Y>(q: Quantity, trajs: seq<Trajectory<X, Y>>)
    requires |trajs| == 2 && !Raises(q, trajs[0]) && !Raises(q, trajs[1])
    ensures forall i :: 0 <= i < |trajs| ==> !Raises(q, trajs[i])
  {
  }

  lemma SingleStates<X, Y>(t: Trajectory<X, Y>)
    ensures AllStates([t]) == Elements(t.states)
  {
    assert AllStates([t]) == Elements(t.states) + AllStates([t][1..]);
  }

  lemma PairStates<X, Y>(a: Trajectory<X, Y>, b: Trajectory<X, Y>)
    ensures AllStates([a, b]) == Elements(a.states) + Elements(b.states)
  {
    assert [a, b][1..] == [b] && [b][1..] == [];
    assert AllStates([b]) == Elements(b.states) + AllStates([b][1..]);
    assert AllStates([a, b]) == Elements(a.states) + AllStates([b]);
  }
}

=== FILE: seqmath.dfy ===
/**
 * Sequence arithmetic the measures are built from: sums, arithmetic means,
 * consecutive differences of fencepost timestamps, and the set of distinct
 * elements of a sequence.
 */
module SeqMath {

  /** The set of elements of `s` (Python's `set(s)`). */
  function Elements<T>(s: seq<T>): set<T> {
    set x | x in s
  }

  /** No element occurs twice. */
  predicate Distinct<T(==)>(s: seq<T>) {
    forall i, j :: 0 <= i < j < |s| ==> s[i] != s[j]
  }

  /** No two neighbouring elements are equal. */
  predicate NoRepeats<T(==)>(s: seq<T>) {
    forall i :: 0 < i < |s| ==> s[i - 1] != s[i]
  }

  /** Each timestamp is smaller than the next one (the pairwise check of `zip(ts, ts[1:])`). */
  predicate StrictlyIncreasing(ts: seq<real>) {
    forall i :: 0 < i < |ts| ==> ts[i - 1] < ts[i]
  }

  /** Python's `sum`: a right fold here, which agrees with Python's left fold because these reals are exact. */
  function Sum(xs: seq<real>): real {
    if |xs| == 0 then 0.0 else xs[0] + Sum(xs[1..])
  }

  /** Python's `statistics.mean` on a non-empty sequence. */
  function Mean(xs: seq<real>): real
    requires |xs| > 0
  {
    Sum(xs) / |xs| as real
  }

  /** The mean is the sum divided by the count. */
  lemma MeanOfSum(xs: seq<real>, n: real)
    requires |xs| > 0 && n == |xs| as real
    ensures Mean(xs) == Sum(xs) / n
  {
  }

  /** The mean of one value is that value. */
  lemma MeanOfOne(x: real)
    ensures Mean([x]) == x
  {
    assert Sum([x]) == x + Sum([x][1..]);
  }

  /** The mean of two values is their midpoint. */
  lemma MeanOfPair(x: real, y: real)
    ensures Mean([x, y]) == (x + y) / 2.0
  {
    assert [x, y][1..] == [y] && [y][1..] == [];
    assert Sum([y]) == y + Sum([y][1..]);
    assert Sum([x, y]) == x + Sum([y]);
    MeanOfSum([x, y], 2.0);
  }

  /** The differences `b - a` over `zip(ts, ts[1:])`: one per fencepost gap. */
  function Diffs(ts: seq<real>): (d: seq<real>)
    ensures |ts| > 0 ==> |d| == |ts| - 1
    ensures |ts| == 0 ==> d == []
    ensures forall i :: 0 <= i < |d| ==> d[i] == ts[i + 1] - ts[i]
  {
    if |ts| < 2 then [] else [ts[1] - ts[0]] + Diffs(ts[1..])
  }

  lemma {:induction false} SumAppend(a: seq<real>, b: seq<real>)
    ensures Sum(a + b) == Sum(a) + Sum(b)
  {
    if |a| == 0 {
      assert a + b == b;
    } else {
      assert (a + b)[1..] == a[1..] + b;
      SumAppend(a[1..], b);
    }
  }

  /** Gaps between fenceposts telescope to the span from the first to the last fencepost. */
  lemma {:induction false} Telescope(ts: seq<real>)
    requires |ts| > 0
    ensures Sum(Diffs(ts)) == ts[|ts| - 1] - ts[0]
  {
    if |ts| >= 2 {
      Telescope(ts[1..]);
    }
  }

  /** Every gap between strictly increasing fenceposts is positive. */
  lemma StrictlyIncreasingOrdered(ts: seq<real>, i: int, j: int)
    requires StrictlyIncreasing(ts)
    requires 0 <= i < j < |ts|
    ensures ts[i] < ts[j]
    decreases j - i
  {
    if i + 1 < j {
      StrictlyIncreasingOrdered(ts, i, j - 1);
    }
  }

  /** A strictly increasing sequence stays so when a smaller value is put in front. */
  lemma StrictlyIncreasingCons(x: real, s: seq<real>)
    requires StrictlyIncreasing(s)
    requires |s| > 0 ==> x < s[0]
    ensures StrictlyIncreasing([x] + s)
  {
    var t := [x] + s;
    forall i | 0 < i < |t| ensures t[i - 1] < t[i] {
      if i > 1 {
        assert t[i - 1] == s[i - 2] && t[i] == s[i - 1];
      }
    }
  }

  /** The rest of a strictly increasing sequence is strictly increasing and above its first value. */
  lemma StrictlyIncreasingTail(x: real, s: seq<real>)
    requires StrictlyIncreasing([x] + s)
    ensures StrictlyIncreasing(s)
    ensures |s| > 0 ==> x < s[0]
  {
    var t := [x] + s;
    forall i | 0 < i < |s| ensures s[i - 1] < s[i] {
      assert s[i - 1] == t[i] && s[i] == t[i + 1];
    }
    if |s| > 0 {
      assert t[0] == x && t[1] == s[0];
      assert t[0] < t[1];
    }
  }

  /** The mean of differences of fenceposts is the total span divided by the number of gaps. */
  lemma MeanOfDiffs(ts: seq<real>, gaps: real)
    requires |ts| >= 2 && gaps == (|ts| - 1) as real
    ensures Mean(Diffs(ts)) == (ts[|ts| - 1] - ts[0]) / gaps
  {
    Telescope(ts);
    MeanOfSpan(Diffs(ts), ts[|ts| - 1] - ts[0], |ts| - 1);
  }

  /** Values adding up to `span` over `m` entries have mean `span / m`. */
  lemma MeanOfSpan(d: seq<real>, span: real, m: int)
    requires m >= 1 && |d| == m && Sum(d) == span
    ensures Mean(d) == span / m as real
  {
    MeanOfSum(d, m as real);
  }

  /** A sequence without duplicates has as many distinct elements as entries. */
  lemma {:induction false} DistinctCardinality<T>(s: seq<T>)
    requires Distinct(s)
    ensures |Elements(s)| == |s|
  {
    if |s| > 0 {
      var t := s[1..];
      assert Distinct(t) by {
        forall i, j | 0 <= i < j < |t| ensures t[i] != t[j] {
          assert t[i] == s[i + 1] && t[j] == s[j + 1];
        }
      }
      DistinctCardinality(t);
      assert s == [s[0]] + t;
      assert s[0] !in t by {
        forall k | 0 <= k < |t| ensures t[k] != s[0] {
          assert t[k] == s[k + 1];
        }
      }
      assert Elements(s) == Elements(t) + {s[0]};
    }
  }

  /** Putting one element in front adds it to the set of elements. */
  lemma ElementsCons<T>(x: T, s: seq<T>)
    ensures Elements([x] + s) == {x} + Elements(s)
  {
  }

  /** Appending one element adds it to the set of elements. */
  lemma ElementsSnoc<T>(s: seq<T>, x: T)
    ensures Elements(s + [x]) == Elements(s) + {x}
  {
    assert forall y :: y in s + [x] <==> y in s || y == x;
  }

  /** Taking out the element at `k` takes one copy of it out of the multiset. */
  lemma MultisetRemove<T>(s: seq<T>, k: int)
    requires 0 <= k < |s|
    ensures multiset(s[..k] + s[k + 1..]) == multiset(s) - multiset{s[k]}
  {
    assert s == s[..k] + [s[k]] + s[k + 1..];
    assert multiset(s) == multiset(s[..k]) + multiset{s[k]} + multiset(s[k + 1..]);
    assert multiset(s[..k] + s[k + 1..]) == multiset(s[..k]) + multiset(s[k + 1..]);
  }

  /** Every element of a sequence has an index in any permutation of it. */
  lemma MatchFirst<T>(a: seq<T>, b: seq<T>) returns (k: int)
    requires |a| > 0 && multiset(a) == multiset(b)
    ensures 0 <= k < |b| && b[k] == a[0]
  {
    assert a[0] in multiset(b);
    k :| 0 <= k < |b| && b[k] == a[0];
  }

  /**
   * Taking the first element out of `a` and a matching one out of its
   * permutation `b` leaves two permutations of each other.
   */
  lemma RemoveMatching<T>(a: seq<T>, b: seq<T>, k: int)
    requires |a| > 0 && 0 <= k < |b| && b[k] == a[0]
    requires multiset(a) == multiset(b)
    ensures multiset(a[1..]) == multiset(b[..k] + b[k + 1..])
  {
    MultisetRemove(b, k);
    assert a == [a[0]] + a[1..];
    assert multiset(a) == multiset{a[0]} + multiset(a[1..]);
    assert multiset(a[1..]) == multiset(a) - multiset{a[0]};
  }

  /** The sum is the element at `k` plus the sum of the others. */
  lemma {:induction false} SumRemove(xs: seq<real>, k: int)
    requires 0 <= k < |xs|
    ensures Sum(xs) == xs[k] + Sum(xs[..k] + xs[k + 1..])
  {
    if k == 0 {
      assert xs[..0] + xs[1..] == xs[1..];
    } else {
      SumRemove(xs[1..], k - 1);
      assert xs[..k] + xs[k + 1..] == [xs[0]] + (xs[1..][..k - 1] + xs[1..][k..]);
    }
  }

  /** The sum does not depend on the order of its terms. */
  lemma {:induction false} SumPermutation(a: seq<real>, b: seq<real>)
    requires multiset(a) == multiset(b)
    ensures Sum(a) == Sum(b)
  {
    if |a| == 0 {
      assert |b| == |multiset(b)| == 0;
    } else {
      var k := MatchFirst(a, b);
      RemoveMatching(a, b, k);
      SumPermutation(a[1..], b[..k] + b[k + 1..]);
      SumRemove(b, k);
    }
  }

  /** Putting an element back in front of a permutation of the rest gives a permutation of the whole. */
  lemma RestoreMatching<T>(x: T, s: seq<T>, b: seq<T>, k: int)
    requires 0 <= k < |b| && b[k] == x
    requires multiset(s) == multiset(b[..k] + b[k + 1..])
    ensures multiset([x] + s) == multiset(b)
  {
    MultisetRemove(b, k);
    assert multiset([x] + s) == multiset{x} + multiset(s);
  }

  /** In a duplicate-free sequence every element occurs exactly once. */
  lemma {:induction false} DistinctMultiplicity<T>(s: seq<T>, x: T)
    requires Distinct(s)
    ensures multiset(s)[x] == if x in s then 1 else 0
  {
    if |s| > 0 {
      assert Distinct(s[1..]) by {
        forall i, j | 0 <= i < j < |s[1..]| ensures s[1..][i] != s[1..][j] {
          assert s[1..][i] == s[i + 1] && s[1..][j] == s[j + 1];
        }
      }
      assert s[0] !in s[1..] by {
        forall i | 0 <= i < |s[1..]| ensures s[1..][i] != s[0] {
          assert s[1..][i] == s[i + 1];
        }
      }
      DistinctMultiplicity(s[1..], x);
      assert s == [s[0]] + s[1..];
      assert multiset(s) == multiset{s[0]} + multiset(s[1..]);
    }
  }

  /** Two duplicate-free sequences with the same elements are permutations of each other. */
  lemma DistinctSameMultiset<T>(a: seq<T>, b: seq<T>)
    requires Distinct(a) && Distinct(b)
    requires Elements(a) == Elements(b)
    ensures multiset(a) == multiset(b)
  {
    forall x ensures multiset(a)[x] == multiset(b)[x] {
      DistinctMultiplicity(a, x);
      DistinctMultiplicity(b, x);
      assert x in a <==> x in Elements(a);
      assert x in b <==> x in Elements(b);
    }
  }

  /** Python's `s.index(x)`: the position of the first occurrence of `x`. */
  function FirstIndex<T(==)>(s: seq<T>, x: T): (i: nat)
    requires x in s
    ensures i < |s| && s[i] == x
    ensures forall k :: 0 <= k < i ==> s[k] != x
  {
    if s[0] == x then 0 else 1 + FirstIndex(s[1..], x)
  }

  /** Every element of `ks` occurs in `s`, and they are listed in the order of their first occurrence there. */
  predicate InFirstOccurrenceOrder<T(==)>(ks: seq<T>, s: seq<T>) {
    && (forall i :: 0 <= i < |ks| ==> ks[i] in s)
    && (forall i, j :: 0 <= i < j < |ks| ==> FirstIndex(s, ks[i]) < FirstIndex(s, ks[j]))
  }

  /** Two duplicate-free sequences with the same elements have the same length. */
  lemma SameElementsSameLength<T>(a: seq<T>, b: seq<T>)
    requires Distinct(a) && Distinct(b)
    requires Elements(a) == Elements(b)
    ensures |a| == |b|
  {
    DistinctCardinality(a);
    DistinctCardinality(b);
  }

  /** A sum of values each at least `c` is at least `|xs| * c`, and likewise for at most. */
  lemma {:induction false} SumBounds(xs: seq<real>, c: real)
    ensures (forall i :: 0 <= i < |xs| ==> xs[i] > c) ==> Sum(xs) > |xs| as real * c || xs == []
    ensures (forall i :: 0 <= i < |xs| ==> xs[i] < c) ==> Sum(xs) < |xs| as real * c || xs == []
  {
    if xs != [] {
      SumBounds(xs[1..], c);
      assert forall i :: 0 <= i < |xs[1..]| ==> xs[1..][i] == xs[i + 1];
    }
  }

  /** A mean is never below every value nor above every value. */
  lemma MeanWithinValues(xs: seq<real>)
    requires |xs| > 0
    ensures exists i :: 0 <= i < |xs| && xs[i] <= Mean(xs)
    ensures exists j :: 0 <= j < |xs| && Mean(xs) <= xs[j]
  {
    SumBounds(xs, Mean(xs));
    MeanTimesCount(xs, |xs| as real);
  }

  /** The mean times the count gives back the sum. */
  lemma MeanTimesCount(xs: seq<real>, n: real)
    requires |xs| > 0 && n == |xs| as real
    ensures Mean(xs) * n == Sum(xs)
  {
  }
}

=== FILE: trajectory.dfy ===
/**
 * A trajectory: a path through a two-dimensional categorical state space,
 * with fencepost timestamps around each event (statespacegrid/trajectory.py).
 *
 * Construction takes the raw inputs a caller may hand over (which in Python
 * are untyped lists), runs the six checks of `__internal_validity_check` in
 * their order and reports the first one that fails.
 */
module Trajectories {
  import opened Errors
  import opened SeqMath

  /** The two ordered axis ranges; the order is kept as given. */
  datatype StateSpace<X, Y> = StateSpace(xRange: seq<X>, yRange: seq<Y>)

  /** A cell of the grid. */
  datatype State<X, Y> = State(x: X, y: Y)

  /** `times` are fenceposts: event `i` lasts from `times[i]` to `times[i + 1]`. */
  datatype Trajectory<X, Y> = Trajectory(space: StateSpace<X, Y>, states: seq<State<X, Y>>, times: seq<real>)

  predicate InSpace<X(==), Y(==)>(s: State<X, Y>, space: StateSpace<X, Y>) {
    s.x in space.xRange && s.y in space.yRange
  }

  /** What every constructed trajectory satisfies. */
  predicate Valid<X(==), Y(==)>(t: Trajectory<X, Y>) {
    && |t.states| == |t.times| - 1
    && (forall i :: 0 <= i < |t.states| ==> InSpace(t.states[i], t.space))
    && StrictlyIncreasing(t.times)
  }

  predicate AllValid<X(==), Y(==)>(trajs: seq<Trajectory<X, Y>>) {
    forall i :: 0 <= i < |trajs| ==> Valid(trajs[i])
  }

  /** The total time a trajectory covers, `times[-1] - times[0]`. */
  function Duration<X(==), Y(==)>(t: Trajectory<X, Y>): (d: real)
    requires Valid(t)
    ensures |t.states| > 0 <==> d > 0.0
    ensures |t.states| == 0 ==> d == 0.0
  {
    var d := t.times[|t.times| - 1] - t.times[0];
    if |t.states| > 0 then StrictlyIncreasingOrdered(t.times, 0, |t.times| - 1); d else d
  }

  // ---------------------------------------------------------------------
  // Raw constructor input

  /**
   * A state entry as a caller supplies it: `Atom` is a value that is neither
   * a tuple nor a list; `Items(n)` is a tuple or list of `n` items that is not
   * an (x, y) pair of labels; `Pair` is an (x, y) pair of labels.
   */
  datatype RawState<X, Y> = Atom | Items(arity: nat) | Pair(x: X, y: Y)

  /** A timestamp as supplied: an int or float, or anything else. */
  datatype RawTime = Number(value: real) | NonNumber

  function Arity<X, Y>(r: RawState<X, Y>): nat {
    match r
    case Atom => 0
    case Items(n) => n
    case Pair(_, _) => 2
  }

  predicate AllSequences<X, Y>(states: seq<RawState<X, Y>>) {
    forall i :: 0 <= i < |states| ==> !states[i].Atom?
  }

  predicate AllPairs<X, Y>(states: seq<RawState<X, Y>>) {
    forall i :: 0 <= i < |states| ==> Arity(states[i]) == 2
  }

  predicate AllNumeric(times: seq<RawTime>) {
    forall i :: 0 <= i < |times| ==> times[i].Number?
  }

  /** A two-item tuple of non-labels is never `in` a range of labels. */
  predicate AllInRange<X(==), Y(==)>(xRange: seq<X>, yRange: seq<Y>, states: seq<RawState<X, Y>>) {
    forall i :: 0 <= i < |states| ==> states[i].Pair? && states[i].x in xRange && states[i].y in yRange
  }

  predicate Before(a: RawTime, b: RawTime) {
    a.Number? && b.Number? && a.value < b.value
  }

  predicate Ascending(times: seq<RawTime>) {
    forall i :: 0 < i < |times| ==> Before(times[i - 1], times[i])
  }

  function PairsToStates<X, Y>(states: seq<RawState<X, Y>>): (cs: seq<State<X, Y>>)
    requires forall i :: 0 <= i < |states| ==> states[i].Pair?
    ensures |cs| == |states|
    ensures forall i :: 0 <= i < |states| ==> states[i] == Pair(cs[i].x, cs[i].y)
  {
    if |states| == 0 then [] else [State(states[0].x, states[0].y)] + PairsToStates(states[1..])
  }

  function Values(times: seq<RawTime>): (vs: seq<real>)
    requires AllNumeric(times)
    ensures |vs| == |times|
    ensures forall i :: 0 <= i < |times| ==> times[i] == Number(vs[i])
  {
    if |times| == 0 then [] else [times[0].value] + Values(times[1..])
  }

  /**
   * `Trajectory(x_range, y_range, states, times)`: the checks run in the
   * source's order and the first failing one is reported.
   */
  function Construct<X(==), Y(==)>(xRange: seq<X>, yRange: seq<Y>, states: seq<RawState<X, Y>>, times: seq<RawTime>)
    : (r: Result<Trajectory<X, Y>>)
    ensures r.Ok? <==>
              && AllSequences(states) && AllPairs(states) && |states| == |times| - 1
              && AllNumeric(times) && AllInRange(xRange, yRange, states) && Ascending(times)
    ensures r.Ok? ==> Valid(r.value) && r.value.space == StateSpace(xRange, yRange)
    ensures r.Ok? ==> |r.value.states| == |states| && |r.value.times| == |times|
    ensures r.Ok? ==> forall i :: 0 <= i < |states| ==> states[i] == Pair(r.value.states[i].x, r.value.states[i].y)
    ensures r.Ok? ==> forall i :: 0 <= i < |times| ==> times[i] == Number(r.value.times[i])
    ensures r == Err(StateNotSequence) <==> !AllSequences(states)
    ensures r == Err(StateNotPair) <==> AllSequences(states) && !AllPairs(states)
    ensures r == Err(EventCountMismatch) <==>
              AllSequences(states) && AllPairs(states) && |states| != |times| - 1
    ensures r == Err(TimeNotNumeric) <==>
              AllSequences(states) && AllPairs(states) && |states| == |times| - 1 && !AllNumeric(times)
    ensures r == Err(StateOutOfRange) <==>
              && AllSequences(states) && AllPairs(states) && |states| == |times| - 1 && AllNumeric(times)
              && !AllInRange(xRange, yRange, states)
    ensures r == Err(TimesNotAscending) <==>
              && AllSequences(states) && AllPairs(states) && |states| == |times| - 1 && AllNumeric(times)
              && AllInRange(xRange, yRange, states) && !Ascending(times)
  {
    if !AllSequences(states) then Err(StateNotSequence)
    else if !AllPairs(states) then Err(StateNotPair)
    else if |states| != |times| - 1 then Err(EventCountMismatch)
    else if !AllNumeric(times) then Err(TimeNotNumeric)
    else if !AllInRange(xRange, yRange, states) then Err(StateOutOfRange)
    else if !Ascending(times) then Err(TimesNotAscending)
    else
      var t := Trajectory(StateSpace(xRange, yRange), PairsToStates(states), Values(times));
      assert StrictlyIncreasing(t.times) by {
        forall i | 0 < i < |t.times| ensures t.times[i - 1] < t.times[i] {
          assert times[i - 1] == Number(t.times[i - 1]) && times[i] == Number(t.times[i]);
        }
      }
      Ok(t)
  }

  /** The raw form of a trajectory's states: every one a labelled pair. */
  function RawStates<X, Y>(states: seq<State<X, Y>>): (rs: seq<RawState<X, Y>>)
    ensures |rs| == |states|
    ensures forall i :: 0 <= i < |states| ==> rs[i] == Pair(states[i].x, states[i].y)
  {
    seq(|states|, i requires 0 <= i < |states| => Pair(states[i].x, states[i].y))
  }

  /** The raw form of a trajectory's timestamps: every one a number. */
  function RawTimes(times: seq<real>): (rs: seq<RawTime>)
    ensures |rs| == |times|
    ensures forall i :: 0 <= i < |times| ==> rs[i] == Number(times[i])
  {
    seq(|times|, i requires 0 <= i < |times| => Number(times[i]))
  }

  /**
   * Construction accepts exactly the valid trajectories: handing back the
   * parts of any valid trajectory rebuilds it unchanged, ranges in their order.
   */
  lemma ConstructValid<X, Y>(t: Trajectory<X, Y>)
    requires Valid(t)
    ensures Construct(t.space.xRange, t.space.yRange, RawStates(t.states), RawTimes(t.times)) == Ok(t)
  {
    var r := Construct(t.space.xRange, t.space.yRange, RawStates(t.states), RawTimes(t.times));
    assert AllInRange(t.space.xRange, t.space.yRange, RawStates(t.states)) by {
      forall i | 0 <= i < |t.states| ensures InSpace(t.states[i], t.space) {
      }
    }
    assert Ascending(RawTimes(t.times));
    assert r.Ok?;
    assert r.value.states == t.states;
    assert r.value.times == t.times;
  }

  /**
   * `Trajectory()`: ranges [1, 2, 3, 4] on both axes, no states and the
   * single timestamp 0.0; a valid trajectory with no events.
   */
  function Default(): (r: Result<Trajectory<int, int>>)
    ensures r.Ok?
    ensures r.value.space == StateSpace([1, 2, 3, 4], [1, 2, 3, 4])
    ensures r.value.states == [] && r.value.times == [0.0]
    ensures Valid(r.value)
  {
    Construct([1, 2, 3, 4], [1, 2, 3, 4], [], [Number(0.0)])
  }
}

=== FILE: validation.dfy ===
/**
 * Cross-trajectory validation (`validate_trajectories` in
 * StateSpaceGridLib/statespacegrid/measure.py): every trajectory's range
 * sets must equal the union over all of them, and each later trajectory's
 * ranges must agree position by position (as far as `zip` reaches) with the
 * first trajectory's.
 */
module Validation {
  import opened Errors
  import opened SeqMath
  import opened Trajectories

  function XRanges<X, Y>(trajs: seq<Trajectory<X, Y>>): (rs: seq<seq<X>>)
    ensures |rs| == |trajs|
    ensures forall i :: 0 <= i < |trajs| ==> rs[i] == trajs[i].space.xRange
  {
    seq(|trajs|, i requires 0 <= i < |trajs| => trajs[i].space.xRange)
  }

  function YRanges<X, Y>(trajs: seq<Trajectory<X, Y>>): (rs: seq<seq<Y>>)
    ensures |rs| == |trajs|
    ensures forall i :: 0 <= i < |trajs| ==> rs[i] == trajs[i].space.yRange
  {
    seq(|trajs|, i requires 0 <= i < |trajs| => trajs[i].space.yRange)
  }

  /** `set(chain(*ranges))`: every label of every range. */
  function UnionOf<L>(rs: seq<seq<L>>): set<L> {
    if |rs| == 0 then {} else Elements(rs[0]) + UnionOf(rs[1..])
  }

  /** Each range's set equals the union of all of them. */
  predicate SetsMatch<L(==)>(rs: seq<seq<L>>) {
    forall i :: 0 <= i < |rs| ==> Elements(rs[i]) == UnionOf(rs)
  }

  /** `all(len(set(comp)) == 1 for comp in zip(a, b))`: equal wherever both have a position. */
  predicate PrefixAgree<L(==)>(a: seq<L>, b: seq<L>) {
    forall k :: 0 <= k < |a| && k < |b| ==> a[k] == b[k]
  }

  /** Every range after the first agrees position by position with the first. */
  predicate OrderMatches<L(==)>(rs: seq<seq<L>>) {
    forall i :: 0 < i < |rs| ==> PrefixAgree(rs[0], rs[i])
  }

  /**
   * `validate_trajectories(*trajs)`: the empty call fails first, then a set
   * mismatch on x, then on y, then an order disagreement on x, then on y.
   */
  function Validate<X(==), Y(==)>(trajs: seq<Trajectory<X, Y>>): (r: Outcome)
    ensures r.Pass? <==>
              && |trajs| > 0
              && SetsMatch(XRanges(trajs)) && SetsMatch(YRanges(trajs))
              && OrderMatches(XRanges(trajs)) && OrderMatches(YRanges(trajs))
    ensures r == Fail(NoTrajectories) <==> |trajs| == 0
    ensures r == Fail(StateSpaceMismatch) <==>
              |trajs| > 0 && !(SetsMatch(XRanges(trajs)) && SetsMatch(YRanges(trajs)))
    ensures r == Fail(StateSpaceOrder) <==>
              && |trajs| > 0 && SetsMatch(XRanges(trajs)) && SetsMatch(YRanges(trajs))
              && !(OrderMatches(XRanges(trajs)) && OrderMatches(YRanges(trajs)))
  {
    if |trajs| == 0 then Fail(NoTrajectories)
    else if !SetsMatch(XRanges(trajs)) then Fail(StateSpaceMismatch)
    else if !SetsMatch(YRanges(trajs)) then Fail(StateSpaceMismatch)
    else if !OrderMatches(XRanges(trajs)) then Fail(StateSpaceOrder)
    else if !OrderMatches(YRanges(trajs)) then Fail(StateSpaceOrder)
    else Pass
  }

  /** If every range has the label set `e`, so does their union. */
  lemma {:induction false} UnionOfEqual<L>(rs: seq<seq<L>>, e: set<L>)
    requires |rs| > 0
    requires forall i :: 0 <= i < |rs| ==> Elements(rs[i]) == e
    ensures UnionOf(rs) == e
  {
    if |rs| > 1 {
      UnionOfEqual(rs[1..], e);
    }
  }

  /**
   * The union test is the same as comparing every range's set with the
   * first range's set.
   */
  lemma SetsMatchIffSameAsFirst<L>(rs: seq<seq<L>>)
    requires |rs| > 0
    ensures SetsMatch(rs) <==> forall i :: 0 <= i < |rs| ==> Elements(rs[i]) == Elements(rs[0])
  {
    if forall i :: 0 <= i < |rs| ==> Elements(rs[i]) == Elements(rs[0]) {
      UnionOfEqual(rs, Elements(rs[0]));
    }
  }

  /**
   * A single trajectory is always consistent with itself (Python raises
   * `TypeError` instead when a label is unhashable; labels here only need `==`).
   */
  lemma SinglePasses<X, Y>(t: Trajectory<X, Y>)
    ensures Validate([t]) == Pass
  {
    SetsMatchIffSameAsFirst(XRanges([t]));
    SetsMatchIffSameAsFirst(YRanges([t]));
  }

  /** Trajectories that all share one state space always pass (for hashable labels, as above). */
  lemma SameSpacePasses<X, Y>(trajs: seq<Trajectory<X, Y>>)
    requires |trajs| > 0
    requires forall i :: 0 <= i < |trajs| ==> trajs[i].space == trajs[0].space
    ensures Validate(trajs) == Pass
  {
    var xs, ys := XRanges(trajs), YRanges(trajs);
    SetsMatchIffSameAsFirst(xs);
    SetsMatchIffSameAsFirst(ys);
    assert forall i :: 0 <= i < |trajs| ==> xs[i] == xs[0] && ys[i] == ys[0];
  }

  /** With duplicate-free ranges, equal sets and agreeing positions make identical ranges. */
  lemma AgreeingDistinctRangesEqual<L>(a: seq<L>, b: seq<L>)
    requires Distinct(a) && Distinct(b)
    requires Elements(a) == Elements(b)
    requires PrefixAgree(a, b)
    ensures a == b
  {
    SameElementsSameLength(a, b);
  }

  /**
   * When the labels of every range are distinct, passing validation means
   * all trajectories share one state space, so `|x_range| * |y_range|` is the
   * same for all of them.
   */
  lemma PassMeansSameSpace<X, Y>(trajs: seq<Trajectory<X, Y>>)
    requires forall i :: 0 <= i < |trajs| ==> Distinct(trajs[i].space.xRange) && Distinct(trajs[i].space.yRange)
    requires Validate(trajs) == Pass
    ensures forall i :: 0 <= i < |trajs| ==> trajs[i].space == trajs[0].space
  {
    var xs, ys := XRanges(trajs), YRanges(trajs);
    SetsMatchIffSameAsFirst(xs);
    SetsMatchIffSameAsFirst(ys);
    forall i | 0 <= i < |trajs| ensures trajs[i].space == trajs[0].space {
      if i > 0 {
        assert PrefixAgree(xs[0], xs[i]) && PrefixAgree(ys[0], ys[i]);
        AgreeingDistinctRangesEqual(xs[0], xs[i]);
        AgreeingDistinctRangesEqual(ys[0], ys[i]);
      }
    }
  }

  /**
   * `zip` stops at the shorter range, so with a repeated label two ranges of
   * different lengths pass: [1, 2] and [1, 2, 1] are accepted together.
   */
  lemma OrderCheckStopsAtShorter()
    ensures Validate([Trajectory(StateSpace([1, 2], [1]), [], [0.0]),
                      Trajectory(StateSpace([1, 2, 1], [1]), [], [0.0])]) == Pass
  {
    var trajs := [Trajectory(StateSpace([1, 2], [1]), [], [0.0]),
                  Trajectory(StateSpace([1, 2, 1], [1]), [], [0.0])];
    var xs := XRanges(trajs);
    assert Elements(xs[0]) == {1, 2} == Elements(xs[1]);
    SetsMatchIffSameAsFirst(xs);
    SetsMatchIffSameAsFirst(YRanges(trajs));
  }
}

=== FILE: visits.dfy ===
/**
 * Visits: runs of consecutive events in the same state, counted once
 * (`Trajectory.get_visits` and `Trajectory.get_visit_times`).
 */
module Visits {
  import opened SeqMath

  /**
   * The states `s[i]` for `i` from `j` on where `s[i - 1] != s[i]`: the
   * second part of the `get_visits` comprehension over `zip(s, s[1:])`.
   */
  function ChangesFrom<S(==)>(s: seq<S>, j: nat): (c: seq<S>)
    requires 1 <= j <= |s|
    ensures |c| <= |s| - j
    ensures |c| == |s| - j <==> forall i :: j <= i < |s| ==> s[i - 1] != s[i]
    ensures NoRepeats([s[j - 1]] + c)
    ensures ([s[j - 1]] + c)[|c|] == s[|s| - 1]
    decreases |s| - j
  {
    if j == |s| then []
    else
      var rest := ChangesFrom(s, j + 1);
      if s[j - 1] != s[j] then [s[j]] + rest else rest
  }

  /** Collapsing runs loses no state: the same states occur before and after. */
  lemma {:induction false} ChangesFromElements<S>(s: seq<S>, j: nat)
    requires 1 <= j <= |s|
    ensures Elements([s[j - 1]] + ChangesFrom(s, j)) == Elements(s[j - 1..])
    decreases |s| - j
  {
    if j < |s| {
      ChangesFromElements(s, j + 1);
      assert s[j - 1..] == [s[j - 1]] + s[j..];
      CollapseElements(s[j - 1], s[j], ChangesFrom(s, j + 1), ChangesFrom(s, j), s[j..]);
    }
  }

  /**
   * One step of collapsing: `b` kept after `a` only when they differ still
   * leaves the same elements after `a`.
   */
  lemma CollapseElements<S>(a: S, b: S, rest: seq<S>, kept: seq<S>, tail: seq<S>)
    requires Elements([b] + rest) == Elements(tail)
    requires kept == if a != b then [b] + rest else rest
    ensures Elements([a] + kept) == Elements([a] + tail)
  {
    ElementsCons(a, kept);
    ElementsCons(a, tail);
    ElementsCons(b, rest);
    if a == b {
      ElementsCons(a, rest);
    }
  }

  /** A new visit starts at position `p`: the state differs from the one before. */
  ghost predicate ChangesAt<S>(s: seq<S>, p: int) {
    0 < p < |s| && s[p - 1] != s[p]
  }

  /** The positions in `j..i` where a new visit starts. */
  ghost function ChangePoints<S>(s: seq<S>, j: int, i: int): set<int> {
    set p | j <= p <= i && ChangesAt(s, p)
  }

  /** The visit that event `i` belongs to: the number of visits started after the first, up to `i`. */
  ghost function VisitIndex<S>(s: seq<S>, i: int): nat {
    |ChangePoints(s, 1, i)|
  }

  /** Peeling position `j` off the front of the range of change points. */
  lemma ChangePointsStep<S>(s: seq<S>, j: int, i: int)
    requires 1 <= j <= i < |s|
    ensures |ChangePoints(s, j, i)| == (if s[j - 1] != s[j] then 1 else 0) + |ChangePoints(s, j + 1, i)|
  {
    var rest := ChangePoints(s, j + 1, i);
    if s[j - 1] != s[j] {
      assert ChangePoints(s, j, i) == {j} + rest;
      assert j !in rest;
    } else {
      assert ChangePoints(s, j, i) == rest;
    }
  }

  /** One state is kept for each change point from `j` on. */
  lemma {:induction false} ChangesFromCount<S>(s: seq<S>, j: nat)
    requires 1 <= j <= |s|
    ensures |ChangesFrom(s, j)| == |ChangePoints(s, j, |s| - 1)|
    decreases |s| - j
  {
    if j == |s| {
      assert ChangePoints(s, j, |s| - 1) == {};
    } else {
      ChangesFromCount(s, j + 1);
      ChangePointsStep(s, j, |s| - 1);
      var rest := ChangesFrom(s, j + 1);
      if s[j - 1] != s[j] {
        assert ChangesFrom(s, j) == [s[j]] + rest;
      } else {
        assert ChangesFrom(s, j) == rest;
      }
    }
  }

  /**
   * Event `i` lies in the visit reached by counting the change points from
   * `j` to `i`, and that visit's state is the event's state.
   */
  lemma {:induction false} ChangesFromIndex<S>(s: seq<S>, j: nat, i: nat)
    requires 1 <= j <= i + 1 && i < |s|
    ensures |ChangePoints(s, j, i)| <= |ChangesFrom(s, j)|
    ensures ([s[j - 1]] + ChangesFrom(s, j))[|ChangePoints(s, j, i)|] == s[i]
    decreases i + 1 - j
  {
    if j == i + 1 {
      assert ChangePoints(s, j, i) == {};
    } else {
      ChangesFromIndex(s, j + 1, i);
      ChangePointsStep(s, j, i);
      var rest := ChangesFrom(s, j + 1);
      var r := |ChangePoints(s, j + 1, i)|;
      if s[j - 1] != s[j] {
        assert ([s[j - 1]] + ([s[j]] + rest))[r + 1] == ([s[j]] + rest)[r];
      } else {
        assert [s[j - 1]] + rest == [s[j]] + rest;
      }
    }
  }

  /**
   * `get_visits`: the first state, then every state that differs from the
   * one before it. Python indexes `states[0]`, so there must be a state.
   */
  function Visits<S(==)>(s: seq<S>): (v: seq<S>)
    requires |s| > 0
    ensures 1 <= |v| <= |s|
    ensures v[0] == s[0] && v[|v| - 1] == s[|s| - 1]
    ensures NoRepeats(v)
    ensures |v| == |s| <==> NoRepeats(s)
    ensures Elements(v) == Elements(s)
  {
    ChangesFromElements(s, 1);
    assert s[0..] == s;
    [s[0]] + ChangesFrom(s, 1)
  }

  /**
   * A visit is one maximal run of equal states: there is one visit more than
   * there are change points, and each event's state is the state of the
   * visit reached by counting the change points up to it. Together these
   * pin the visits down.
   */
  lemma VisitsAreRuns<S>(s: seq<S>)
    requires |s| > 0
    ensures |Visits(s)| == 1 + |ChangePoints(s, 1, |s| - 1)|
    ensures forall i :: 0 <= i < |s| ==> VisitIndex(s, i) < |Visits(s)| && Visits(s)[VisitIndex(s, i)] == s[i]
  {
    ChangesFromCount(s, 1);
    forall i | 0 <= i < |s| ensures VisitIndex(s, i) < |Visits(s)| && Visits(s)[VisitIndex(s, i)] == s[i] {
      ChangesFromIndex(s, 1, i);
    }
  }

  /** Without neighbouring repeats nothing is collapsed. */
  lemma {:induction false} ChangesFromAll<S>(s: seq<S>, j: nat)
    requires 1 <= j <= |s|
    requires NoRepeats(s)
    ensures ChangesFrom(s, j) == s[j..]
    decreases |s| - j
  {
    if j < |s| {
      ChangesFromAll(s, j + 1);
      assert s[j..] == [s[j]] + s[j + 1..];
    }
  }

  /** Collapsing runs twice is collapsing them once. */
  lemma VisitsIdempotent<S>(s: seq<S>)
    requires |s| > 0
    ensures Visits(Visits(s)) == Visits(s)
  {
    var v := Visits(s);
    ChangesFromAll(v, 1);
    assert v == [v[0]] + v[1..];
  }

  /**
   * The timestamps `times[i]`, for `i` from `j` up to `|states|`, that close a
   * visit: the last fencepost, or one where the state changes.
   */
  function BoundariesFrom<S(==)>(states: seq<S>, times: seq<real>, j: nat): (b: seq<real>)
    requires |times| == |states| + 1
    requires 1 <= j <= |times|
    ensures j <= |states| ==> |b| == |ChangesFrom(states, j)| + 1
    ensures j == |times| ==> b == []
    ensures j <= |states| ==> b[|b| - 1] == times[|states|]
    decreases |times| - j
  {
    if j == |times| then []
    else
      var rest := BoundariesFrom(states, times, j + 1);
      if j == |states| || states[j - 1] != states[j] then [times[j]] + rest else rest
  }

  /** Every visit boundary from `j` on is a fencepost from `j` on. */
  lemma {:induction false} BoundariesAreFenceposts<S>(states: seq<S>, times: seq<real>, j: nat)
    requires |times| == |states| + 1
    requires 1 <= j <= |times|
    ensures forall k :: 0 <= k < |BoundariesFrom(states, times, j)| ==> BoundariesFrom(states, times, j)[k] in times[j..]
    decreases |times| - j
  {
    if j < |times| {
      BoundariesAreFenceposts(states, times, j + 1);
      assert times[j..] == [times[j]] + times[j + 1..];
    }
  }

  /** Visit boundaries after fencepost `j - 1` keep the fenceposts' strict order. */
  lemma {:induction false} BoundariesIncrease<S>(states: seq<S>, times: seq<real>, j: nat)
    requires |times| == |states| + 1
    requires 1 <= j <= |times|
    requires StrictlyIncreasing(times)
    ensures StrictlyIncreasing([times[j - 1]] + BoundariesFrom(states, times, j))
    decreases |times| - j
  {
    if j < |times| {
      BoundariesIncrease(states, times, j + 1);
      var rest := BoundariesFrom(states, times, j + 1);
      var b := BoundariesFrom(states, times, j);
      assert times[j - 1] < times[j];
      StrictlyIncreasingTail(times[j], rest);
      if b != rest {
        assert b == [times[j]] + rest;
      }
      StrictlyIncreasingCons(times[j - 1], b);
    }
  }

  /** A strictly increasing fencepost does not recur later on. */
  lemma NotInLater(times: seq<real>, i: nat, j: nat)
    requires StrictlyIncreasing(times)
    requires i < j <= |times|
    ensures times[i] !in times[j..]
  {
    forall k | j <= k < |times| ensures times[k] != times[i] {
      StrictlyIncreasingOrdered(times, i, k);
    }
    assert forall k :: 0 <= k < |times[j..]| ==> times[j..][k] == times[j + k];
  }

  /**
   * With strictly increasing fenceposts, fencepost `i` closes a visit found
   * from `j` on exactly when `i` is at least `j` and either is the last
   * fencepost or starts a new visit.
   */
  lemma {:induction false} BoundaryMembership<S>(states: seq<S>, times: seq<real>, j: nat, i: nat)
    requires |times| == |states| + 1
    requires 1 <= j <= |times| && 1 <= i < |times|
    requires StrictlyIncreasing(times)
    ensures times[i] in BoundariesFrom(states, times, j) <==> j <= i && (i == |states| || ChangesAt(states, i))
    decreases |times| - j
  {
    if j < |times| {
      BoundaryMembership(states, times, j + 1, i);
      BoundariesAreFenceposts(states, times, j + 1);
      var rest := BoundariesFrom(states, times, j + 1);
      if i < j {
        BoundariesAreFenceposts(states, times, j);
        NotInLater(times, i, j);
      } else if i == j {
        NotInLater(times, j, j + 1);
        assert times[j] !in rest;
      } else {
        StrictlyIncreasingOrdered(times, j, i);
      }
    }
  }

  /**
   * `get_visit_times`: the first fencepost, then each fencepost that ends a
   * visit; these fencepost the visits as `times` fenceposts the events.
   */
  function VisitTimes<S(==)>(states: seq<S>, times: seq<real>): (vt: seq<real>)
    requires |times| == |states| + 1
    ensures 1 <= |vt|
    ensures |states| > 0 ==> |vt| == |Visits(states)| + 1
    ensures vt[0] == times[0] && vt[|vt| - 1] == times[|states|]
    ensures |states| == 0 ==> vt == [times[0]]
    ensures forall k :: 0 <= k < |vt| ==> vt[k] in times
    ensures StrictlyIncreasing(times) ==> StrictlyIncreasing(vt)
  {
    BoundariesAreFenceposts(states, times, 1);
    if StrictlyIncreasing(times) then
      BoundariesIncrease(states, times, 1);
      [times[0]] + BoundariesFrom(states, times, 1)
    else
      [times[0]] + BoundariesFrom(states, times, 1)
  }

  /** The inner fenceposts among the visit times are exactly those where the state changes. */
  lemma VisitTimesAtChanges<S>(states: seq<S>, times: seq<real>)
    requires |times| == |states| + 1
    requires StrictlyIncreasing(times)
    ensures forall i :: 1 <= i < |states| ==> (times[i] in VisitTimes(states, times) <==> states[i - 1] != states[i])
  {
    assert VisitTimes(states, times) == [times[0]] + BoundariesFrom(states, times, 1);
    forall i | 1 <= i < |states| ensures times[i] in VisitTimes(states, times) <==> states[i - 1] != states[i] {
      StrictlyIncreasingOrdered(times, 0, i);
      BoundaryMembership(states, times, 1, i);
    }
  }

  /** Visit durations, like event durations, add up to the whole trajectory's span. */
  lemma VisitDurationsSum<S>(states: seq<S>, times: seq<real>)
    requires |times| == |states| + 1
    ensures Sum(Diffs(VisitTimes(states, times))) == times[|times| - 1] - times[0]
    ensures Sum(Diffs(VisitTimes(states, times))) == Sum(Diffs(times))
  {
    Telescope(VisitTimes(states, times));
    Telescope(times);
  }
}
